=== FILE: README.md ===
# Two-pass assembler for the Mano basic computer, modelled in Dafny

This project models the two passes of `assembler.py` and the driver that runs them. The assembler turns
a tokenized, lower-cased assembly program into a machine image: a mapping from 12-digit binary addresses
to binary words. The model covers four steps:

- **Comment stripping** (`Comments`). Every line is cut at its first token that starts with `/`.
- **Pass one** (`PassOne`).
  - Line 0 holds the origin operand, in hexadecimal. Lines 1 up to the first `end` (never the last line)
    are visited.
  - Each visited line gets the address `origin + inc`, rendered in binary and padded to 12 digits.
  - An `org X` line resets the origin to X and `inc` to -1. The `org` line itself therefore gets X - 1, and
    the next line gets X.
  - A label (a token ending in `,`) at the head of a line is bound to that line's address.
  - Every address is inserted into an insertion-ordered dictionary.
- **Pass two** (`PassTwo`).
  - Each visited line is classified by the first rule that matches, in the source's order. The rules are:
    `hlt` anywhere in the line; a register mnemonic at token 0, then at token 1; a memory mnemonic at
    token 0, then at token 1; an I/O mnemonic at token 0, then at token 1; and a `hex`/`dec` data line,
    but only once a `hlt` line has been seen.
  - The line is then encoded, and the word is written to the *(i-1)-th dictionary key*.
  - Keys that nobody wrote are dropped.
- **The driver** (`Assembler.Assemble`) runs stripping, pass one and pass two in that order.

Numbers live in `Numerals`:

- the `'{:b}'` rendering (`ToBin`);
- `zfill` (`ZFill`), which pads and never truncates;
- `int(s, radix)` on digit strings (`ParseRadix`);
- `hex(n)[2:]` (`ToHex`);
- `__format2bin` (`Format2Bin`).

The insertion-ordered dictionary is modelled in `OrderedKeys`. Its key order is `Dedup` of the inserted
addresses, and the removal of empty slots is `Filter`.

Every uncaught Python exception becomes a value of `Syntax.Error`:

- an `IndexError` on a missing token or a missing dictionary key position is `MissingToken` or
  `SlotOutOfRange`;
- a `ValueError` from `int` is `NotANumber`;
- a `KeyError` is `UndefinedSymbol` or `UnknownMnemonic`;
- the failed label assertion is `MalformedLabel`;
- a negative counter, whose `hex` rendering `-0x…` does not parse back, is `NegativeAddress`.

`PassOne.FirstPassSucceeds` and `PassTwo.SecondPassSucceeds` show the converse: each pass fails on those
conditions and on nothing else.

Pass one and the storage of words have independent reference definitions, and lemmas connect them to
the passes:

- `PassOne.AddressOf` states the address each line should get: the last origin in force plus the distance
  to it.
- `PassOne.LastDef` states which definition a label resolves to.
- `PassTwo.LastWriter` states which line's word survives at an address.

The word a single line writes (`PassTwo.LineWord`, `PassTwo.WordOf`) is the composition of `Classify` and
`Encode`. Their contracts pin down each rule on their own: `ClassifyFirstMatch` shows that every outcome
of `Classify` rules out the rules tried before it, and `Encode` states the word each kind of line
produces. The lemmas `HaltWord`, `RegisterWord`, `MemoryWord`, `LabelledMemoryWord`, `IoWord` and
`DataNeedsHalt` state, rule by rule, what ends up in a visited line's slot.

Points of the code that are easy to misread:

- An `org X` line itself gets address X - 1 (line 72 sets `inc` to -1 before the counter is computed at
  line 74), and the line after it gets X. So `org 100`, two instructions, `org 200`, one instruction yields
  addresses 100, 101, 1ff, 200 (hexadecimal).
- For a labelled memory-reference line, the indirect bit is taken from every token after the first
  (`'i' in t[1:]`, line 103), so the label's own token is not looked at but the mnemonic's is.
- A label line after `hlt` whose second token is neither `hex` nor `dec` only prints `error` and leaves its
  slot empty (lines 113-119). The exception in `__format2bin` (line 58) is therefore unreachable from the
  passes.
- Line 0's second token is read as the origin (line 66) without checking that the line is an `org`
  directive.

## Model

| member | source | states |
|---|---|---|
| `Numerals.ToBin` | assembler.py:54 | `'{:b}'` gives a binary string of the value with no leading zero; its length is the bit length, with 2^(len-1) <= n < 2^len |
| `Numerals.BitLengthFits` | assembler.py:54 | the bit length fits a positive width exactly when the value is below 2^width |
| `Numerals.ZFillPads` | assembler.py:54 | `zfill` keeps the string as a suffix and puts only `'0'` before it, so it never truncates |
| `Numerals.ZFillValue` | assembler.py:54 | left padding with zeros keeps the binary value |
| `Numerals.ParseRadixPositional` | assembler.py:54-56 | `int(s)` / `int(s, 16)` read digit by digit: the empty string and a string ending in a non-digit are rejected, a single digit is its own value, appending a digit multiplies by the radix and adds the digit, and a non-empty invalid prefix stays invalid |
| `Numerals.ParseRadixLeadingZero` | assembler.py:54-56 | a leading `0` does not change the value of a non-empty numeral |
| `Numerals.ToHex` | assembler.py:74 | `hex(n)[2:]` parses back as hexadecimal to n and is never empty |
| `Numerals.Format2Bin` | assembler.py:52-58 | an unknown format raises; otherwise the result succeeds exactly when the literal parses; it is binary, denotes the literal's value, and is `width` long exactly when the value is below 2^width (longer otherwise) |
| `Syntax.IsLabelEndsWithComma` | assembler.py:41-42 | a token is a label exactly when it is some name followed by a comma, as `endswith(',')` decides; the empty token is not a label |
| `Comments.StripLine` | assembler.py:46-50 | the stripped line is a prefix of the line, holds no comment token, and ends either at the line's end or just before a comment token |
| `Comments.StripLineIdempotent` | assembler.py:45-50 | stripping a line twice is the same as once |
| `Comments.StripComments` | assembler.py:45-50 | no line is added or removed, and every line, line 0 included, keeps exactly its tokens before its first comment token: the result is a comment-free prefix of the line that ends at the line's end or just before a comment token |
| `Comments.StripCommentsIdempotent` | assembler.py:45-50 | stripping a whole program twice is the same as once |
| `OrderedKeys.Dedup` | assembler.py:79 | the key order of a dictionary filled by insertion holds each inserted address exactly once; it is the insertion order itself when no address repeats |
| `OrderedKeys.DedupFirstInsertion` | assembler.py:79 | the keys are ordered by first insertion: each key is first inserted before any insertion of a later key, so re-inserting a key never moves it |
| `OrderedKeys.Filter` | assembler.py:121-125 | dropping the empty slots keeps exactly the keys that have a word, in key order, as a subsequence, without repeats |
| `PassOne.AddrOfInjective` | assembler.py:74 | two addresses have the same 12-digit string exactly when they are equal |
| `PassOne.AddrOfWidth` | assembler.py:74 | an address string is exactly 12 digits for addresses below 2^12 and longer above |
| `PassOne.HexCounterIsAddress` | assembler.py:74 | rendering the counter with `hex`, stripping `0x` and converting back with `__format2bin(.., 'hex', 12)` yields the padded binary address of the counter |
| `PassOne.Counter` | assembler.py:74 | the counter fails on a non-hex origin, fails when origin + inc is negative, and succeeds otherwise |
| `PassOne.StopFromIsFirstEnd` | assembler.py:67-69 | the visited range stops at the first `end` line: no earlier visited line is `end` |
| `PassOne.FirstPass` | assembler.py:63-79 | success requires line 0 with an operand, and yields exactly one address per visited line |
| `PassOne.FirstPassWellFormed` | assembler.py:66-77 | a successful pass one visited no empty line, no `org` without an operand and no label without a second token |
| `PassOne.FirstPassAddresses` | assembler.py:64-79 | every visited line gets the address of the reference definition: the value of the last origin in force plus the lines since it, minus one |
| `PassOne.FirstPassSucceeds` | assembler.py:63-79 | pass one succeeds if and only if line 0 has an operand and every visited line is non-empty, has its `org` operand and label instruction, and gets a valid non-negative address under a hexadecimal origin |
| `PassOne.ContiguousAddress` | assembler.py:64-75 | without an `org` line, line m's reference address is origin + m - 1 |
| `PassOne.FirstPassContiguous` | assembler.py:64-75 | without `org` lines, the k-th address is the header's origin plus k |
| `PassOne.FirstPassIncreasing` | assembler.py:64-75 | without `org` lines, the addresses denote origin, origin + 1, ..., so they strictly increase and are distinct; the last line never gets one |
| `PassOne.FirstPassDistinct` | assembler.py:64-79 | without `org` lines no address repeats, so the dictionary has one key per visited line |
| `PassOne.FirstPassOrigin` | assembler.py:70-75 | an `org X` line gets X - 1, so X is at least 1, and the next non-`org` line gets X |
| `PassOne.FirstPassLabels` | assembler.py:76-78 | a name is bound exactly when it is a label heading some visited line, and it is bound to the address of the last such line (a redefinition wins) |
| `PassOne.FirstPassStopsAtEnd` | assembler.py:67-69 | pass one's outcome equals that of the program cut at the first `end`: lines after it get no address and no binding |
| `PassTwo.Classify` | assembler.py:86-117 | the result is `Halt` exactly when `hlt` is a token; register and I/O mnemonics come from token 0 or 1 and are in their table; a memory reference takes the operand after its mnemonic, with the indirect bit set exactly when `i` follows token 0; data requires a prior `hlt` and a label with `hex`/`dec`; the only failure is a missing token on a line shorter than 3 |
| `PassTwo.ClassifyFirstMatch` | assembler.py:86-117 | first match wins: a register mnemonic in token 0, else in token 1, beats every later rule; a memory reference needs both tokens outside the register table; I/O needs both outside the register and memory tables; data and `Skip` need both outside all three tables, and `Skip` is left only when the data rule does not apply; a failure is a line that reached a rule reading a token it lacks |
| `PassTwo.Encode` | assembler.py:88-117 | `Skip` writes nothing; `hlt`, register and I/O mnemonics write their table's word, and an unknown mnemonic raises; a memory reference writes the indirect bit, the opcode and the operand label's address, and succeeds exactly when that label is bound; a data word is binary and denotes the literal's value |
| `PassTwo.EncodeData` | assembler.py:113-117 | a data word is `__format2bin(literal, format, 16)`: an unknown format raises, a `hex`/`dec` one succeeds exactly when the literal parses, and the word is the value in binary, max(16, bit length) digits long, exactly 16 when the value is below 2^16 |
| `PassTwo.Place` | assembler.py:85-117 | the halt flag is raised exactly by a line containing `hlt`; either no slot changes, or only the (i-1)-th key's slot is set and every other slot keeps its word |
| `PassTwo.SecondPass` | assembler.py:83-125 | the image only holds dictionary keys; its order lists exactly the filled slots as a subsequence of the keys, without repeats when the keys have none |
| `PassTwo.SecondPassSlots` | assembler.py:85-117 | with distinct keys, every visited line encodes without error and has a slot when it writes; slot k holds exactly what line k+1 writes, and stays empty otherwise |
| `PassTwo.SecondPassSucceeds` | assembler.py:83-117 | pass two succeeds if and only if every visited line classifies and encodes without error and every visited line that writes a word has a dictionary key at position i - 1 |
| `PassTwo.SweepLastWords` | assembler.py:85-117 | whatever the keys, each slot holds the word of the last visited line that writes to it, and slots no line writes are absent |
| `PassTwo.VisitedLine` | assembler.py:85-117 | a visited line classifies and encodes under the halt flag set by the lines before it; its word is in its slot, and a line that writes nothing leaves its slot empty |
| `PassTwo.DataUnhalted` | assembler.py:113-117 | a line that is data after a `hlt` matches no rule before one |
| `PassTwo.DataNeedsHalt` | assembler.py:113-117 | a data line's slot is filled exactly when a `hlt` line precedes it; then it holds the literal's value in binary, max(16, bit length) digits long, so exactly 16 digits when the value is below 2^16 |
| `PassTwo.MemoryWord` | assembler.py:95-101 | a memory reference with the mnemonic first stores the indirect bit, the opcode and the operand label's address; a successful run implies the label is bound |
| `PassTwo.LabelledMemoryWord` | assembler.py:102-108 | the same for a labelled line: mnemonic in token 1, operand in token 2 |
| `PassTwo.RegisterWord` | assembler.py:91-94 | a visited line without `hlt` whose token 0, or else token 1, is a register mnemonic stores that mnemonic's register word in its slot |
| `PassTwo.HaltWord` | assembler.py:88-90 | a `hlt` line stores the register table's `hlt` word, and every later line sees the halt flag |
| `PassTwo.IoWord` | assembler.py:109-112 | a visited line without `hlt` and without register or memory mnemonics in tokens 0 and 1, whose token 0, or else token 1, is an I/O mnemonic, has two tokens and stores that mnemonic's I/O word in its slot |
| `Assembler.Assemble` | assembler.py:21-31 | success implies pass one succeeded; every stored address is a pass-one address; the order lists each stored address once, following the dictionary's key order; at most one word per visited line |
| `Assembler.AssemblePlacement` | assembler.py:74-92 | when no address repeats, each visited line's word is stored at that line's own (reference) address, and a line writing nothing leaves its address out |
| `Assembler.AssembleContiguous` | assembler.py:64-92 | without `org` lines, line m's word is stored at origin + m - 1 |
| `Assembler.AssembleOperand` | assembler.py:76-101 | symbol round trip: a memory reference stores the address of the last visited line defining its operand label |
| `Assembler.AssembleAligned` | assembler.py:83-125 | corrected driver, writing line i's word to line i's own address; same guarantees as `Assemble`: only pass-one addresses are stored, each once, in first-insertion order, and fewer of them than the visited lines |
| `Assembler.AlignedAgrees` | assembler.py:89-117 | when no address repeats, the corrected driver returns exactly what `Assemble` returns |
| `Assembler.AlignedPlacement` | assembler.py:79-117 | in the corrected driver an address holds the word of the last visited line with that address that writes one, so each line's word is at its own address unless a later line with the same address overwrites it |
| `Assembler.CollidingLayout` | assembler.py:63-79 | for `org o1 / cla / org o2 / cla / x, dec 5 / end` with o2 = o1 + 1, pass one gives lines 1 and 2 the same address v |
| `Assembler.CollidingAssembled` | assembler.py:83-125 | on that program the assembler stores line 3's word at v + 2 (line 4's address) and nothing at v + 1 |
| `Assembler.CollidingAligned` | assembler.py:83-125 | on that program the corrected driver stores line 3's word at its own address v + 1 |
| `Assembler.OrgCollisionMisplaces` | assembler.py:70-92 | an `org` that names the address right after the previous line repeats an address, and the next line's word lands one address too far |
| `Assembler.OrgCollisionExample` | assembler.py:74 | `org 1` followed by `org 2` is such a pair of origins |

## Left out

- Tokenizing and table loading (`read_code`, `__load_table`, lines 13-18 and 35-38) are file I/O. The model
  takes the program as a sequence of lower-cased token lists and the three tables as maps.
- The file-extension and missing-input assertions of `read_code` and `assemble` (lines 14-15, 22-27) only
  check paths, and paths are not modelled.
- The `print` calls (lines 119-120) produce diagnostic output only.
- Instance state that persists across calls is left out. The symbol table and `__bin` are created once, in
  `__init__`, and a second `assemble` call on the same object reuses them. The model starts every run
  from empty tables.
- Exception messages are left out: each failure is an `Error` value carrying only the data needed to tell
  the cases apart.
- Numerals.ParseRadixPositional (and `Numerals.ParseRadix` itself): accepts only unsigned digit strings. Python's `int` also accepts a sign,
  surrounding whitespace, underscores and, in base 16, a `0x` prefix. A negative `dec` literal, which
  Python renders as `-101`, is not modelled.
- PassOne.Counter: the counter is stated as `AddrOf(origin + inc)`. The source's detour through
  `hex(..)[2:]` and `__format2bin(.., 'hex', 12)` is proved equal to it by `PassOne.HexCounterIsAddress`,
  not executed step by step.

## Findings

| source | as written | input that shows it | evidently intended | confidence | as-written member | corrected member |
|---|---|---|---|---|---|---|
| assembler.py:72-92 | An `org X` line itself gets address X - 1 and inserts it into `__bin`. When X - 1 is the address of an earlier line, the dictionary gains one key fewer than there are lines. Pass two still writes line i to the (i-1)-th key, so every later line writes one address too far. | `org 1 / cla / org 2 / cla / x, dec 5 / end` with `cla` in the register table: lines 1 and 2 both get address 1. The keys are 1, 2, 3. Line 3's word goes to address 3 (line 4's address), and address 2 stays empty. | Each line's word is stored at the address pass one gave that line. | not executed | `Assembler.OrgCollisionMisplaces` (on `Assembler.Assemble`) | `Assembler.AssembleAligned`, `Assembler.AlignedPlacement`, `Assembler.CollidingAligned` |

=== FILE: assembler.dfy ===
/**
 * `assemble`: strip the comments, run pass one, run pass two, in that order.
 * The slots pass two fills are the keys of the dictionary pass one built:
 * its addresses in first-insertion order.
 */
module Assembler {
  import opened Wrappers
  import opened Syntax
  import opened Numerals
  import opened Comments
  import opened OrderedKeys
  import opened PassOne
  import opened PassTwo

  /**
   * The machine image of a tokenized program. On success pass one succeeded,
   * every stored address is a pass-one address, and the image lists each
   * stored address once, in the order pass one first assigned it.
   */
  function Assemble(lines: seq<Line>, tabs: Tables): (r: Result<Image, Error>)
    ensures r.Success? ==> FirstPass(StripComments(lines)).Success?
    ensures r.Success? ==>
              var p := FirstPass(StripComments(lines)).value;
              && (forall a :: a in r.value.words ==> a in p.lineAddrs)
              && (forall a :: a in r.value.order <==> a in r.value.words)
              && IsSubsequence(r.value.order, Dedup(p.lineAddrs))
              && Distinct(r.value.order)
              && |r.value.order| < Stop(StripComments(lines))
  {
    var code := StripComments(lines);
    var layout :- FirstPass(code);
    SecondPass(code, Dedup(layout.lineAddrs), tabs, layout.symbols)
  }

  /**
   * When the addresses of the visited lines are pairwise distinct, every
   * visited line's word is stored at that line's own address (the reference
   * address of pass one), and a line that writes nothing leaves its address
   * out of the image.
   */
  lemma AssemblePlacement(lines: seq<Line>, tabs: Tables, m: nat)
    requires Assemble(lines, tabs).Success?
    requires Distinct(FirstPass(StripComments(lines)).value.lineAddrs)
    requires 1 <= m < Stop(StripComments(lines))
    ensures var code := StripComments(lines);
            && m < |code|
            && AddressOf(code, m).Some?
            && var p := FirstPass(code).value;
               var img := Assemble(lines, tabs).value;
               var a := AddrOf(AddressOf(code, m).value);
               && (a in img.words <==> WordOf(code, m, tabs, p.symbols).Some?)
               && (a in img.words ==> WordOf(code, m, tabs, p.symbols) == Some(img.words[a]))
  {
    var code := StripComments(lines);
    var p := FirstPass(code).value;
    FirstPassAddresses(code);
    SecondPassSlots(code, p.lineAddrs, tabs, p.symbols);
  }

  /**
   * Without `org` lines the addresses are contiguous, so line m's word is
   * stored at origin + m - 1, where `origin` is the header's operand.
   */
  lemma AssembleContiguous(lines: seq<Line>, tabs: Tables, origin: nat, m: nat)
    requires Assemble(lines, tabs).Success?
    requires |StripComments(lines)| > 0 && |StripComments(lines)[0]| >= 2
    requires ParseRadix(StripComments(lines)[0][1], 16) == Some(origin)
    requires forall i :: 1 <= i < Stop(StripComments(lines)) ==> !IsOrg(StripComments(lines)[i])
    requires 1 <= m < Stop(StripComments(lines))
    ensures m < |StripComments(lines)|
    ensures var code := StripComments(lines);
            var p := FirstPass(code).value;
            var img := Assemble(lines, tabs).value;
            var a := AddrOf(origin + m - 1);
            && (a in img.words <==> WordOf(code, m, tabs, p.symbols).Some?)
            && (a in img.words ==> WordOf(code, m, tabs, p.symbols) == Some(img.words[a]))
  {
    var code := StripComments(lines);
    ContiguousAddress(code, m);
    FirstPassDistinct(code);
    AssemblePlacement(lines, tabs, m);
  }

  /**
   * The symbol round trip: a memory-reference line whose mnemonic comes first
   * stores the indirect bit, the opcode and the address of the last visited
   * line that defines the operand's label; a successful run implies that
   * label is defined.
   */
  lemma AssembleOperand(lines: seq<Line>, tabs: Tables, m: nat)
    requires Assemble(lines, tabs).Success?
    requires Distinct(FirstPass(StripComments(lines)).value.lineAddrs)
    requires 1 <= m < Stop(StripComments(lines))
    requires var t := StripComments(lines)[m];
             && |t| > 0 && "hlt" !in t
             && t[0] !in tabs.rri && t[0] in tabs.mri
             && (|t| >= 2 ==> t[1] !in tabs.rri)
    ensures var code := StripComments(lines);
            var t := code[m];
            && |t| >= 2
            && var d := LastDef(code, t[1] + ",", Stop(code));
               && 1 <= d < Stop(code)
               && AddressOf(code, m).Some? && AddressOf(code, d).Some?
               && var img := Assemble(lines, tabs).value;
                  var a := AddrOf(AddressOf(code, m).value);
                  && a in img.words
                  && img.words[a]
                     == (if "i" in t[1..] then "1" else "0") + tabs.mri[t[0]] + AddrOf(AddressOf(code, d).value)
  {
    var code := StripComments(lines);
    var p := FirstPass(code).value;
    var t := code[m];
    FirstPassAddresses(code);
    MemoryWord(code, p.lineAddrs, tabs, p.symbols, m);
    FirstPassLabels(code, t[1] + ",");
  }

  // ---------------------------------------------------------------------------
  // Repeated addresses
  // ---------------------------------------------------------------------------

  /**
   * The assembler with line i writing to line i's own address instead of the
   * (i-1)-th dictionary key. It agrees with `Assemble` whenever the addresses
   * are pairwise distinct, and stays right when an `org` revisits an address.
   */
  function AssembleAligned(lines: seq<Line>, tabs: Tables): (r: Result<Image, Error>)
    ensures r.Success? ==> FirstPass(StripComments(lines)).Success?
    ensures r.Success? ==>
              var p := FirstPass(StripComments(lines)).value;
              && (forall a :: a in r.value.words ==> a in p.lineAddrs)
              && (forall a :: a in r.value.order <==> a in r.value.words)
              && IsSubsequence(r.value.order, Dedup(p.lineAddrs))
              && Distinct(r.value.order)
              && |r.value.order| < Stop(StripComments(lines))
  {
    var code := StripComments(lines);
    var layout :- FirstPass(code);
    var s :- Sweep(code, 1, layout.lineAddrs, tabs, layout.symbols, Sheet(false, map[]));
    SweepWithinKeys(code, 1, layout.lineAddrs, tabs, layout.symbols, Sheet(false, map[]));
    Success(Image(Filter(Dedup(layout.lineAddrs), s.words), s.words))
  }

  /** With pairwise distinct addresses the aligned assembler is the assembler. */
  lemma AlignedAgrees(lines: seq<Line>, tabs: Tables)
    requires FirstPass(StripComments(lines)).Success?
    requires Distinct(FirstPass(StripComments(lines)).value.lineAddrs)
    ensures AssembleAligned(lines, tabs) == Assemble(lines, tabs)
  {
  }

  /**
   * The aligned assembler stores at every address the word of the last
   * visited line that has that address and writes one, so a line's word is
   * at its own address unless a later line with the same address overwrites
   * it.
   */
  lemma AlignedPlacement(lines: seq<Line>, tabs: Tables, m: nat)
    requires AssembleAligned(lines, tabs).Success?
    requires 1 <= m < Stop(StripComments(lines))
    ensures var code := StripComments(lines);
            && m < |code|
            && AddressOf(code, m).Some?
            && var p := FirstPass(code).value;
               var img := AssembleAligned(lines, tabs).value;
               var a := AddrOf(AddressOf(code, m).value);
               var last := LastWriter(p.lineAddrs, Writes(code, tabs, p.symbols), a, Stop(code));
               && (a in img.words <==> last > 0)
               && (last > 0 ==>
                     && last < Stop(code)
                     && AddressOf(code, last) == AddressOf(code, m)
                     && WordOf(code, last, tabs, p.symbols) == Some(img.words[a]))
               && (WordOf(code, m, tabs, p.symbols).Some? ==> m <= last)
  {
    var code := StripComments(lines);
    var p := FirstPass(code).value;
    var ws := Writes(code, tabs, p.symbols);
    FirstPassAddresses(code);
    var a := AddrOf(AddressOf(code, m).value);
    var sweep := Sweep(code, 1, p.lineAddrs, tabs, p.symbols, Sheet(false, map[]));
    assert AssembleAligned(lines, tabs).value.words == sweep.value.words;
    SweepLastWords(code, p.lineAddrs, tabs, p.symbols);
    assert HoldsLastWords(p.lineAddrs, ws, sweep.value.words, Stop(code));
    var last := LastWriter(p.lineAddrs, ws, a, Stop(code));
    assert a in sweep.value.words <==> last > 0;
    if last > 0 {
      assert p.lineAddrs[last - 1] == a;
      assert p.lineAddrs[last - 1] == AddrOf(AddressOf(code, last).value);
      AddrOfInjective(AddressOf(code, last).value, AddressOf(code, m).value);
      assert ws[last - 1] == WordOf(code, last, tabs, p.symbols);
    }
    if WordOf(code, m, tabs, p.symbols).Some? {
      LastWriterIsLast(p.lineAddrs, ws, a, Stop(code), m);
    }
  }

  /**
   * A family of programs whose second `org` names the address right after
   * the first line: `o1` denotes v and `o2` denotes v + 1, so the `org o2`
   * line itself gets address v a second time. With `o1 = "1"` and `o2 = "2"`:
   * `org 1 / cla / org 2 / cla / x, dec 5 / end`.
   */
  function CollidingProgram(o1: string, o2: string): seq<Line> {
    [["org", o1], ["cla"], ["org", o2], ["cla"], ["x,", "dec", "5"], ["end"]]
  }

  const CollidingTables: Tables := Tables(map[], map["cla" := "0111100000000000"], map[])

  predicate Adjacent(o1: string, o2: string, v: nat) {
    ParseRadix(o1, 16) == Some(v) && ParseRadix(o2, 16) == Some(v + 1)
  }

  lemma CollidingStripped(o1: string, o2: string, v: nat)
    requires Adjacent(o1, o2, v)
    ensures StripComments(CollidingProgram(o1, o2)) == CollidingProgram(o1, o2)
  {
    var prog := CollidingProgram(o1, o2);
    assert !IsComment(o1) && !IsComment(o2) by {
      assert o1[0] != '/' && o2[0] != '/';
    }
    forall i | 0 <= i < |prog|
      ensures StripLine(prog[i]) == prog[i]
    {
      StripLineKeepsCommentFree(prog[i]);
    }
  }

  /** One step of pass one on a line that is not `end`. */
  lemma WalkStep(lines: seq<Line>, i: nat, c: Cursor, c': Cursor)
    requires 1 <= i < |lines| - 1 && |c.addrs| == i - 1 && |lines[i]| > 0 && !IsEnd(lines[i])
    requires Visit(lines[i], i, c) == Success(c')
    ensures Walk(lines, i, c) == Walk(lines, i + 1, c')
  {
  }

  /** One step of pass two on a line that is not `end`. */
  lemma SweepStep(lines: seq<Line>, i: nat, keys: seq<string>, tabs: Tables, symbols: map<string, string>, s: Sheet, s': Sheet)
    requires 1 <= i < |lines| - 1 && |lines[i]| > 0 && !IsEnd(lines[i])
    requires Place(lines[i], i, keys, tabs, symbols, s) == Success(s')
    ensures Sweep(lines, i, keys, tabs, symbols, s) == Sweep(lines, i + 1, keys, tabs, symbols, s')
  {
  }

  /** Pass one visits line 1 (`cla`) at the origin. */
  lemma CollidingVisit1(o1: string, v: nat)
    requires ParseRadix(o1, 16) == Some(v)
    ensures Visit(["cla"], 1, Cursor(o1, 0, map[], [])) == Success(Cursor(o1, 1, map[], [AddrOf(v)]))
  {
    assert !IsLabel("cla");
    assert [] + [AddrOf(v)] == [AddrOf(v)];
  }

  /** Pass one visits line 2 (`org o2`) one below the new origin, the address line 1 already has. */
  lemma CollidingVisit2(o1: string, o2: string, v: nat)
    requires ParseRadix(o2, 16) == Some(v + 1)
    ensures Visit(["org", o2], 2, Cursor(o1, 1, map[], [AddrOf(v)]))
            == Success(Cursor(o2, 0, map[], [AddrOf(v), AddrOf(v)]))
  {
    assert IsOrg(["org", o2]) && !IsLabel("org");
    assert Counter(o2, -1) == Success(AddrOf(v));
    assert [AddrOf(v)] + [AddrOf(v)] == [AddrOf(v), AddrOf(v)];
  }

  /** Pass one visits line 3 (`cla`) at the new origin. */
  lemma CollidingVisit3(o2: string, v: nat)
    requires ParseRadix(o2, 16) == Some(v + 1)
    ensures Visit(["cla"], 3, Cursor(o2, 0, map[], [AddrOf(v), AddrOf(v)]))
            == Success(Cursor(o2, 1, map[], [AddrOf(v), AddrOf(v), AddrOf(v + 1)]))
  {
    assert !IsLabel("cla") && !IsOrg(["cla"]);
    assert Counter(o2, 0) == Success(AddrOf(v + 1));
    assert [AddrOf(v), AddrOf(v)] + [AddrOf(v + 1)] == [AddrOf(v), AddrOf(v), AddrOf(v + 1)];
  }

  /** Pass one visits line 4 (`x, dec 5`) and binds `x,`. */
  lemma CollidingVisit4(o2: string, v: nat)
    requires ParseRadix(o2, 16) == Some(v + 1)
    ensures Visit(["x,", "dec", "5"], 4, Cursor(o2, 1, map[], [AddrOf(v), AddrOf(v), AddrOf(v + 1)]))
            == Success(Cursor(o2, 2, map["x," := AddrOf(v + 2)], [AddrOf(v), AddrOf(v), AddrOf(v + 1), AddrOf(v + 2)]))
  {
    assert IsLabel("x,") && !IsOrg(["x,", "dec", "5"]);
    assert Counter(o2, 1) == Success(AddrOf(v + 2));
    assert [AddrOf(v), AddrOf(v), AddrOf(v + 1)] + [AddrOf(v + 2)] == [AddrOf(v), AddrOf(v), AddrOf(v + 1), AddrOf(v + 2)];
  }

  /** Pass one: lines 1 and 2 share address v; `x,` is bound to v + 2. */
  lemma CollidingLayout(o1: string, o2: string, v: nat)
    requires Adjacent(o1, o2, v)
    ensures FirstPass(CollidingProgram(o1, o2))
            == Success(Layout([AddrOf(v), AddrOf(v), AddrOf(v + 1), AddrOf(v + 2)], map["x," := AddrOf(v + 2)]))
  {
    var prog := CollidingProgram(o1, o2);
    var c0 := Cursor(o1, 0, map[], []);
    var c1 := Cursor(o1, 1, map[], [AddrOf(v)]);
    var c2 := Cursor(o2, 0, map[], [AddrOf(v), AddrOf(v)]);
    var c3 := Cursor(o2, 1, map[], [AddrOf(v), AddrOf(v), AddrOf(v + 1)]);
    var c4 := Cursor(o2, 2, map["x," := AddrOf(v + 2)], [AddrOf(v), AddrOf(v), AddrOf(v + 1), AddrOf(v + 2)]);
    CollidingVisit1(o1, v);
    CollidingVisit2(o1, o2, v);
    CollidingVisit3(o2, v);
    CollidingVisit4(o2, v);
    assert !IsEnd(prog[1]) && !IsEnd(prog[2]) && !IsEnd(prog[3]) && !IsEnd(prog[4]) && IsEnd(prog[5]);
    WalkStep(prog, 1, c0, c1);
    WalkStep(prog, 2, c1, c2);
    WalkStep(prog, 3, c2, c3);
    WalkStep(prog, 4, c3, c4);
    assert Walk(prog, 5, c4) == Success(Layout(c4.addrs, c4.symbols));
  }

  /** Before any `hlt`, lines 1 and 3 are register instructions and lines 2 and 4 match no rule. */
  lemma CollidingClassify(o1: string, o2: string, v: nat)
    requires Adjacent(o1, o2, v)
    ensures var prog := CollidingProgram(o1, o2);
            && Classify(prog[1], false, CollidingTables) == Success(Register("cla"))
            && Classify(prog[2], false, CollidingTables) == Success(Skip)
            && Classify(prog[3], false, CollidingTables) == Success(Register("cla"))
            && Classify(prog[4], false, CollidingTables) == Success(Skip)
  {
    var prog := CollidingProgram(o1, o2);
    assert !IsDigit('l', 16) && !IsDigit('h', 16);
    assert forall j :: 0 <= j < |o2| ==> o2[j] != 'l' && o2[j] != 'h';
    assert o2 != "cla" && o2 != "hlt" by {
      assert "cla"[1] == 'l' && "hlt"[0] == 'h';
    }
    assert "hlt" !in prog[2];
    assert "hlt" !in prog[4];
  }

  /** Pass two with slot list `keys`: lines 1 and 3 write, to the first and third slot. */
  lemma CollidingSweep(o1: string, o2: string, v: nat, keys: seq<string>)
    requires Adjacent(o1, o2, v) && |keys| >= 3
    ensures Sweep(CollidingProgram(o1, o2), 1, keys, CollidingTables, map["x," := AddrOf(v + 2)], Sheet(false, map[]))
            == Success(Sheet(false, map[keys[0] := "0111100000000000", keys[2] := "0111100000000000"]))
  {
    var prog := CollidingProgram(o1, o2);
    var tabs := CollidingTables;
    var syms := map["x," := AddrOf(v + 2)];
    var s0 := Sheet(false, map[]);
    var s1 := Sheet(false, map[keys[0] := "0111100000000000"]);
    var s3 := Sheet(false, map[keys[0] := "0111100000000000", keys[2] := "0111100000000000"]);
    CollidingClassify(o1, o2, v);
    assert Encode(Register("cla"), tabs, syms) == Success(Some("0111100000000000"));
    assert Encode(Skip, tabs, syms) == Success(None);
    assert !IsEnd(prog[1]) && !IsEnd(prog[2]) && !IsEnd(prog[3]) && !IsEnd(prog[4]) && IsEnd(prog[5]);
    assert Place(prog[1], 1, keys, tabs, syms, s0) == Success(s1);
    SweepStep(prog, 1, keys, tabs, syms, s0, s1);
    assert Place(prog[2], 2, keys, tabs, syms, s1) == Success(s1);
    SweepStep(prog, 2, keys, tabs, syms, s1, s1);
    assert Place(prog[3], 3, keys, tabs, syms, s1) == Success(s3);
    SweepStep(prog, 3, keys, tabs, syms, s1, s3);
    assert Place(prog[4], 4, keys, tabs, syms, s3) == Success(s3);
    SweepStep(prog, 4, keys, tabs, syms, s3, s3);
  }

  /** Inserting a key twice into an empty ordered dictionary leaves one key. */
  lemma DedupPair(a: string)
    ensures Dedup([a, a]) == [a]
  {
    assert [a, a][..1] == [a];
    assert Distinct([a]);
  }

  /** Inserting a key that is not yet there appends it. */
  lemma DedupAppendNew(s: seq<string>, x: string, d: seq<string>)
    requires Dedup(s) == d && x !in s
    ensures Dedup(s + [x]) == d + [x]
  {
    assert (s + [x])[..|s|] == s;
  }

  /** Inserting `a, a, b` into an ordered dictionary leaves the keys `a, b`. */
  lemma DedupRepeatedPair(a: string, b: string)
    requires a != b
    ensures Dedup([a, a, b]) == [a, b]
  {
    DedupPair(a);
    assert [a, a] + [b] == [a, a, b];
    DedupAppendNew([a, a], b, [a]);
    assert [a] + [b] == [a, b];
  }

  /** Inserting `a, a, b, c` into an ordered dictionary leaves the keys `a, b, c`. */
  lemma DedupRepeatedFirst(a: string, b: string, c: string)
    requires a != b && a != c && b != c
    ensures Dedup([a, a, b, c]) == [a, b, c]
  {
    DedupRepeatedPair(a, b);
    assert [a, a, b] + [c] == [a, a, b, c];
    DedupAppendNew([a, a, b], c, [a, b]);
    assert [a, b] + [c] == [a, b, c];
  }

  /** `Filter` of a list extended by one key. */
  lemma FilterSnoc(s: seq<string>, x: string, w: map<string, string>)
    ensures Filter(s + [x], w) == Filter(s, w) + (if x in w then [x] else [])
  {
    assert (s + [x])[..|s|] == s;
  }

  /** `Filter` on a three-element list, spelled out. */
  lemma FilterOfThree(a: string, b: string, c: string, w: map<string, string>)
    ensures Filter([a, b, c], w)
            == (if a in w then [a] else []) + (if b in w then [b] else []) + (if c in w then [c] else [])
  {
    FilterSnoc([], a, w);
    assert [] + [a] == [a];
    FilterSnoc([a], b, w);
    assert [a] + [b] == [a, b];
    FilterSnoc([a, b], c, w);
    assert [a, b] + [c] == [a, b, c];
  }

  /** The three addresses of the program are distinct strings. */
  lemma CollidingDistinct(v: nat)
    ensures AddrOf(v) != AddrOf(v + 1) && AddrOf(v) != AddrOf(v + 2) && AddrOf(v + 1) != AddrOf(v + 2)
  {
    AddrOfInjective(v, v + 1);
    AddrOfInjective(v, v + 2);
    AddrOfInjective(v + 1, v + 2);
  }

  /** The dictionary built from the program's line addresses has three keys. */
  lemma CollidingKeys(v: nat)
    ensures Dedup([AddrOf(v), AddrOf(v), AddrOf(v + 1), AddrOf(v + 2)]) == [AddrOf(v), AddrOf(v + 1), AddrOf(v + 2)]
  {
    CollidingDistinct(v);
    DedupRepeatedFirst(AddrOf(v), AddrOf(v + 1), AddrOf(v + 2));
  }

  /** The slots that survive when the first and third are filled. */
  lemma CollidingOrderAsWritten(v: nat)
    ensures Filter([AddrOf(v), AddrOf(v + 1), AddrOf(v + 2)], map[AddrOf(v) := "0111100000000000", AddrOf(v + 2) := "0111100000000000"])
            == [AddrOf(v), AddrOf(v + 2)]
  {
    CollidingDistinct(v);
    var a, b, c := AddrOf(v), AddrOf(v + 1), AddrOf(v + 2);
    FilterOfThree(a, b, c, map[a := "0111100000000000", c := "0111100000000000"]);
  }

  /** The slots that survive when the first and second are filled. */
  lemma CollidingOrderAligned(v: nat)
    ensures Filter([AddrOf(v), AddrOf(v + 1), AddrOf(v + 2)], map[AddrOf(v) := "0111100000000000", AddrOf(v + 1) := "0111100000000000"])
            == [AddrOf(v), AddrOf(v + 1)]
  {
    CollidingDistinct(v);
    var a, b, c := AddrOf(v), AddrOf(v + 1), AddrOf(v + 2);
    FilterOfThree(a, b, c, map[a := "0111100000000000", b := "0111100000000000"]);
  }

  /** The assembler on the program: line 3's word lands at v + 2, and v + 1 stays empty. */
  lemma CollidingAssembled(o1: string, o2: string, v: nat)
    requires Adjacent(o1, o2, v)
    ensures Assemble(CollidingProgram(o1, o2), CollidingTables)
            == Success(Image([AddrOf(v), AddrOf(v + 2)], map[AddrOf(v) := "0111100000000000", AddrOf(v + 2) := "0111100000000000"]))
  {
    var prog := CollidingProgram(o1, o2);
    var keys := [AddrOf(v), AddrOf(v + 1), AddrOf(v + 2)];
    CollidingStripped(o1, o2, v);
    CollidingLayout(o1, o2, v);
    CollidingSweep(o1, o2, v, keys);
    CollidingKeys(v);
    CollidingOrderAsWritten(v);
  }

  /** The aligned assembler on the program: line 3's word lands at its own address v + 1. */
  lemma CollidingAligned(o1: string, o2: string, v: nat)
    requires Adjacent(o1, o2, v)
    ensures AssembleAligned(CollidingProgram(o1, o2), CollidingTables)
            == Success(Image([AddrOf(v), AddrOf(v + 1)], map[AddrOf(v) := "0111100000000000", AddrOf(v + 1) := "0111100000000000"]))
  {
    var addrs := [AddrOf(v), AddrOf(v), AddrOf(v + 1), AddrOf(v + 2)];
    CollidingStripped(o1, o2, v);
    CollidingLayout(o1, o2, v);
    CollidingSweep(o1, o2, v, addrs);
    CollidingKeys(v);
    CollidingOrderAligned(v);
    assert map[addrs[0] := "0111100000000000", addrs[2] := "0111100000000000"] == map[AddrOf(v) := "0111100000000000", AddrOf(v + 1) := "0111100000000000"];
  }

  /**
   * An `org` naming the address right after the previous line gives the `org`
   * line a repeated address, the dictionary gets one key fewer than there are
   * lines, and every later line writes one slot too far: line 3 (address
   * v + 1) stores its word at v + 2, the address of line 4, and v + 1 stays
   * empty. The aligned assembler stores it at v + 1.
   */
  lemma OrgCollisionMisplaces(o1: string, o2: string, v: nat)
    requires Adjacent(o1, o2, v)
    ensures FirstPass(CollidingProgram(o1, o2)).Success?
    ensures FirstPass(CollidingProgram(o1, o2)).value.lineAddrs == [AddrOf(v), AddrOf(v), AddrOf(v + 1), AddrOf(v + 2)]
    ensures Assemble(CollidingProgram(o1, o2), CollidingTables)
            == Success(Image([AddrOf(v), AddrOf(v + 2)], map[AddrOf(v) := "0111100000000000", AddrOf(v + 2) := "0111100000000000"]))
    ensures AddrOf(v + 1) !in Assemble(CollidingProgram(o1, o2), CollidingTables).value.words
    ensures AssembleAligned(CollidingProgram(o1, o2), CollidingTables)
            == Success(Image([AddrOf(v), AddrOf(v + 1)], map[AddrOf(v) := "0111100000000000", AddrOf(v + 1) := "0111100000000000"]))
  {
    CollidingLayout(o1, o2, v);
    CollidingAssembled(o1, o2, v);
    CollidingAligned(o1, o2, v);
    AddrOfInjective(v, v + 1);
    AddrOfInjective(v + 1, v + 2);
  }

  /** The family is not empty: `org 1` followed later by `org 2` belongs to it. */
  lemma OrgCollisionExample()
    ensures Adjacent("1", "2", 1)
  {
    assert AllDigits("1", 16) && AllDigits("2", 16);
  }
}

=== FILE: comments.dfy ===
/** Comment stripping: every line is cut at its first token that starts with '/'. */
module Comments {
  import opened Syntax

  predicate IsComment(tok: Token) {
    |tok| > 0 && tok[0] == '/'
  }

  predicate CommentFree(t: Line) {
    forall j :: 0 <= j < |t| ==> !IsComment(t[j])
  }

  /** `r` is `t` up to, and not including, its first comment token. */
  predicate CutAtComment(r: Line, t: Line) {
    && |r| <= |t| && r == t[..|r|]
    && CommentFree(r)
    && (|r| < |t| ==> IsComment(t[|r|]))
  }

  /**
   * The tokens before the first comment token: the result is a prefix of the
   * line with no comment token in it, and it stops either at the end of the
   * line or exactly at a comment token.
   */
  function StripLine(t: Line): (r: Line)
    ensures |r| <= |t| && r == t[..|r|]
    ensures CommentFree(r)
    ensures |r| < |t| ==> IsComment(t[|r|])
  {
    if t == [] then []
    else if IsComment(t[0]) then []
    else [t[0]] + StripLine(t[1..])
  }

  /** A line without a comment token is left as it is. */
  lemma StripLineKeepsCommentFree(t: Line)
    requires CommentFree(t)
    ensures StripLine(t) == t
  {
  }

  /** Stripping a second time changes nothing. */
  lemma StripLineIdempotent(t: Line)
    ensures StripLine(StripLine(t)) == StripLine(t)
  {
    StripLineKeepsCommentFree(StripLine(t));
  }

  /**
   * `__rm_comments`: strip every line of the program, line 0 included. Each
   * line keeps its tokens up to, and not including, its first comment token.
   */
  function StripComments(lines: seq<Line>): (r: seq<Line>)
    ensures |r| == |lines|
    ensures forall i :: 0 <= i < |r| ==> CutAtComment(r[i], lines[i])
    ensures forall i :: 0 <= i < |r| ==> r[i] == StripLine(lines[i])
  {
    seq(|lines|, i requires 0 <= i < |lines| => StripLine(lines[i]))
  }

  /** Stripping a whole program twice is the same as once. */
  lemma StripCommentsIdempotent(lines: seq<Line>)
    ensures StripComments(StripComments(lines)) == StripComments(lines)
  {
    var once := StripComments(lines);
    forall i | 0 <= i < |once|
      ensures StripComments(once)[i] == once[i]
    {
      StripLineIdempotent(lines[i]);
    }
  }
}

=== FILE: numerals.dfy ===
/**
 * Binary strings and the literal conversion used by both passes: a decimal or
 * hexadecimal literal becomes the binary digits of its value, left-padded with
 * '0' to at least a given width (the padding never truncates).
 */
module Numerals {
  import opened Wrappers
  import opened Syntax

  predicate IsBit(c: char) {
    c == '0' || c == '1'
  }

  predicate IsBinary(s: string) {
    forall j :: 0 <= j < |s| ==> IsBit(s[j])
  }

  /** The value of a binary string, most significant digit first. */
  function BinValue(s: string): nat
    requires IsBinary(s)
  {
    if s == [] then 0
    else 2 * BinValue(s[..|s| - 1]) + (if s[|s| - 1] == '1' then 1 else 0)
  }

  function Pow2(k: nat): nat
    ensures Pow2(k) >= 1
  {
    if k == 0 then 1 else 2 * Pow2(k - 1)
  }

  lemma {:induction false} Pow2Monotone(a: nat, b: nat)
    requires a <= b
    ensures Pow2(a) <= Pow2(b)
    decreases b - a
  {
    if a < b {
      Pow2Monotone(a, b - 1);
    }
  }

  /**
   * The shortest binary rendering of `n` (Python's `'{:b}'.format(n)`):
   * no leading zero, "0" for zero, and `|r|` is the bit length of `n`.
   */
  function ToBin(n: nat): (r: string)
    ensures |r| >= 1 && IsBinary(r)
    ensures BinValue(r) == n
    ensures n > 0 ==> r[0] == '1'
    ensures n < Pow2(|r|)
    ensures n > 0 ==> Pow2(|r| - 1) <= n
  {
    if n < 2 then
      [if n == 0 then '0' else '1']
    else
      var prefix := ToBin(n / 2);
      var r := prefix + [if n % 2 == 0 then '0' else '1'];
      assert r[..|r| - 1] == prefix;
      r
  }

  /** For a positive width, the bit length fits the width exactly when the value is below 2^width. */
  lemma {:induction false} BitLengthFits(n: nat, w: nat)
    ensures w >= 1 ==> (|ToBin(n)| <= w <==> n < Pow2(w))
  {
    var r := ToBin(n);
    if w == 0 {
    } else if |r| <= w {
      Pow2Monotone(|r|, w);
    } else {
      assert n >= 2;
      Pow2Monotone(w, |r| - 1);
    }
  }

  function Zeros(k: nat): (r: string)
    ensures |r| == k && IsBinary(r)
    ensures forall j :: 0 <= j < k ==> r[j] == '0'
  {
    seq(k, _ => '0')
  }

  lemma {:induction false} ZerosValue(k: nat)
    ensures BinValue(Zeros(k)) == 0
  {
    if k > 0 {
      assert Zeros(k)[..k - 1] == Zeros(k - 1);
      ZerosValue(k - 1);
    }
  }

  /** Leading zeros do not change a binary value. */
  lemma {:induction false} PaddedValue(k: nat, s: string)
    requires IsBinary(s)
    ensures IsBinary(Zeros(k) + s)
    ensures BinValue(Zeros(k) + s) == BinValue(s)
    decreases |s|
  {
    var p := Zeros(k) + s;
    if s == [] {
      assert p == Zeros(k);
      ZerosValue(k);
    } else {
      assert p[..|p| - 1] == Zeros(k) + s[..|s| - 1];
      PaddedValue(k, s[..|s| - 1]);
    }
  }

  /** Python's `str.zfill` on a string without a sign: pad on the left with '0', never truncate. */
  function ZFill(s: string, w: nat): (r: string)
    ensures |r| == if |s| >= w then |s| else w
  {
    if |s| >= w then s else Zeros(w - |s|) + s
  }

  /** The padded string ends with the original and everything before it is '0'. */
  lemma ZFillPads(s: string, w: nat)
    ensures var r := ZFill(s, w);
            && r[|r| - |s|..] == s
            && forall j :: 0 <= j < |r| - |s| ==> r[j] == '0'
  {
  }

  lemma ZFillValue(s: string, w: nat)
    requires IsBinary(s)
    ensures IsBinary(ZFill(s, w))
    ensures BinValue(ZFill(s, w)) == BinValue(s)
  {
    if |s| < w {
      PaddedValue(w - |s|, s);
    }
  }

  /** The value of one hexadecimal digit of either case, if `c` is one. */
  function HexDigitValue(c: char): (d: Option<nat>)
    ensures d.Some? ==> d.value < 16
  {
    if '0' <= c <= '9' then Some(c as int - '0' as int)
    else if 'a' <= c <= 'f' then Some(c as int - 'a' as int + 10)
    else if 'A' <= c <= 'F' then Some(c as int - 'A' as int + 10)
    else None
  }

  /** A digit of the given radix (10 or 16). */
  predicate IsDigit(c: char, radix: nat) {
    HexDigitValue(c).Some? && HexDigitValue(c).value < radix
  }

  predicate AllDigits(s: string, radix: nat) {
    forall j :: 0 <= j < |s| ==> IsDigit(s[j], radix)
  }

  /** The value of a digit string, most significant digit first; the empty string is 0. */
  function DigitsValue(s: string, radix: nat): nat
    requires AllDigits(s, radix)
  {
    if s == [] then 0
    else
      var last := s[|s| - 1];
      assert IsDigit(last, radix);
      DigitsValue(s[..|s| - 1], radix) * radix + HexDigitValue(last).value
  }

  /**
   * Python's `int(s, radix)` restricted to unsigned digit strings: defined
   * exactly when `s` is a non-empty string of digits of the radix.
   */
  function ParseRadix(s: string, radix: nat): (r: Option<nat>)
    ensures r.Some? <==> |s| > 0 && AllDigits(s, radix)
    ensures r.Some? ==> r.value == DigitsValue(s, radix)
  {
    if |s| > 0 && AllDigits(s, radix) then Some(DigitsValue(s, radix))
    else None
  }

  /**
   * `int(s, radix)` read one digit at a time: the empty string and any string
   * ending in a non-digit are rejected, a single digit is its own value, and
   * appending a digit to a number multiplies it by the radix and adds the digit.
   */
  lemma ParseRadixPositional(s: string, c: char, radix: nat)
    ensures ParseRadix([], radix) == None
    ensures !IsDigit(c, radix) ==> ParseRadix(s + [c], radix) == None
    ensures IsDigit(c, radix) ==> ParseRadix([c], radix) == HexDigitValue(c)
    ensures IsDigit(c, radix) && ParseRadix(s, radix).Some? ==>
              ParseRadix(s + [c], radix) == Some(ParseRadix(s, radix).value * radix + HexDigitValue(c).value)
    ensures |s| > 0 && ParseRadix(s, radix).None? ==> ParseRadix(s + [c], radix) == None
  {
    assert (s + [c])[..|s|] == s;
    assert (s + [c])[|s|] == c;
    if IsDigit(c, radix) {
      DigitsSnoc([], c, radix);
      assert [] + [c] == [c];
    }
    if |s| > 0 && ParseRadix(s, radix).None? {
      var j :| 0 <= j < |s| && !IsDigit(s[j], radix);
      assert (s + [c])[j] == s[j];
    }
  }

  /** Leading zeros do not change the value of a non-empty numeral. */
  lemma {:induction false} ParseRadixLeadingZero(s: string, radix: nat)
    requires radix > 0 && |s| > 0
    ensures ParseRadix("0" + s, radix) == ParseRadix(s, radix)
    decreases |s|
  {
    var z := "0" + s;
    assert IsDigit('0', radix);
    if |s| == 1 {
      ParseRadixPositional("0", s[0], radix);
      ParseRadixPositional([], s[0], radix);
      assert z == "0" + [s[0]] && s == [] + [s[0]];
    } else {
      var p := s[..|s| - 1];
      var c := s[|s| - 1];
      assert s == p + [c];
      assert z == ("0" + p) + [c];
      ParseRadixLeadingZero(p, radix);
      ParseRadixPositional(p, c, radix);
      ParseRadixPositional("0" + p, c, radix);
    }
  }

  function HexChar(d: nat): (c: char)
    requires d < 16
    ensures HexDigitValue(c) == Some(d)
  {
    "0123456789abcdef"[d]
  }

  /** Appending a digit multiplies the value by the radix and adds the digit. */
  lemma DigitsSnoc(p: string, c: char, radix: nat)
    requires AllDigits(p, radix) && IsDigit(c, radix)
    ensures AllDigits(p + [c], radix)
    ensures DigitsValue(p + [c], radix) == DigitsValue(p, radix) * radix + HexDigitValue(c).value
  {
    assert (p + [c])[..|p|] == p;
  }

  /** Python's `hex(n)[2:]` for a non-negative `n`: lower-case digits, no leading zero. */
  function ToHex(n: nat): (r: string)
    ensures ParseRadix(r, 16) == Some(n)
    ensures |r| >= 1
  {
    var prefix := if n < 16 then [] else ToHex(n / 16);
    var c := HexChar(n % 16);
    DigitsSnoc(prefix, c, 16);
    prefix + [c]
  }

  /** The value a literal denotes in a format keyword's radix; `None` for other formats. */
  function FormatRadix(format: string): Option<nat> {
    if format == "dec" then Some(10)
    else if format == "hex" then Some(16)
    else None
  }

  /**
   * `__format2bin`: a `dec` or `hex` literal as a binary string padded to at
   * least `width`. Exactly `width` long when the value is below 2^width,
   * otherwise as long as the value's bit length.
   */
  function Format2Bin(num: string, format: string, width: nat): (r: Result<string, Error>)
    ensures FormatRadix(format).None? ==> r == Failure(UnsupportedFormat(format))
    ensures FormatRadix(format).Some? ==>
              (r.Success? <==> ParseRadix(num, FormatRadix(format).value).Some?)
    ensures r.Failure? && FormatRadix(format).Some? ==> r.error == NotANumber(num)
    ensures r.Success? ==>
              var n := ParseRadix(num, FormatRadix(format).value).value;
              && IsBinary(r.value)
              && BinValue(r.value) == n
              && |r.value| == (if |ToBin(n)| >= width then |ToBin(n)| else width)
              && (width >= 1 ==> (|r.value| == width <==> n < Pow2(width)))
  {
    match FormatRadix(format)
    case None => Failure(UnsupportedFormat(format))
    case Some(radix) =>
      match ParseRadix(num, radix)
      case None => Failure(NotANumber(num))
      case Some(n) =>
        ZFillValue(ToBin(n), width);
        BitLengthFits(n, width);
        Success(ZFill(ToBin(n), width))
  }
}

=== FILE: ordered_keys.dfy ===
/**
 * The key order of an insertion-ordered dictionary: inserting a key that is
 * already present keeps its first position. `Filter` keeps the keys that
 * received a value, in the same order.
 */
module OrderedKeys {

  predicate Distinct<T(==)>(s: seq<T>) {
    forall a, b :: 0 <= a < b < |s| ==> s[a] != s[b]
  }

  /** `r` is `s` with some elements left out, the rest kept in order. */
  predicate IsSubsequence<T(==)>(r: seq<T>, s: seq<T>)
    decreases |s|
  {
    if r == [] then true
    else if s == [] then false
    else if r[|r| - 1] == s[|s| - 1] then IsSubsequence(r[..|r| - 1], s[..|s| - 1])
    else IsSubsequence(r, s[..|s| - 1])
  }

  /** `a` occurs in `s` before the first occurrence of `b`. */
  predicate OccursBefore<T(==)>(s: seq<T>, a: T, b: T) {
    exists p :: 0 <= p < |s| && s[p] == a && b !in s[..p]
  }

  /** In `r`, every key first occurs in `s` before any later key of `r` occurs there at all. */
  predicate FirstInsertionOrder<T(==)>(r: seq<T>, s: seq<T>) {
    forall x, y :: 0 <= x < y < |r| ==> OccursBefore(s, r[x], r[y])
  }

  /**
   * The keys of a dictionary after inserting the elements of `s` one by one:
   * a key that is already present keeps its first position.
   */
  function Dedup<T(==,!new)>(s: seq<T>): (r: seq<T>)
    ensures Distinct(r)
    ensures forall x :: x in r <==> x in s
    ensures |r| <= |s|
    ensures Distinct(s) ==> r == s
  {
    if s == [] then []
    else
      var d := Dedup(s[..|s| - 1]);
      var last := s[|s| - 1];
      assert forall x :: x in s <==> x in s[..|s| - 1] || x == last;
      if last in d then d else d + [last]
  }

  /**
   * Python's dictionaries keep first-insertion order: a key inserted again
   * keeps its first position, so `Dedup` orders the keys by first insertion.
   */
  lemma {:induction false} DedupFirstInsertion<T(!new)>(s: seq<T>)
    ensures FirstInsertionOrder(Dedup(s), s)
    decreases |s|
  {
    if s != [] {
      var p := s[..|s| - 1];
      var last := s[|s| - 1];
      assert p + [last] == s;
      DedupFirstInsertion(p);
      DedupOrderStep(Dedup(p), p, last);
    }
  }

  /** Inserting one more element keeps the first-insertion order. */
  lemma DedupOrderStep<T>(d: seq<T>, s: seq<T>, last: T)
    requires FirstInsertionOrder(d, s)
    requires forall x :: x in d <==> x in s
    ensures last in d ==> FirstInsertionOrder(d, s + [last])
    ensures last !in d ==> FirstInsertionOrder(d + [last], s + [last])
  {
    var s' := s + [last];
    var r := if last in d then d else d + [last];
    forall x, y | 0 <= x < y < |r|
      ensures OccursBefore(s', r[x], r[y])
    {
      assert r[x] == d[x];
      if y < |d| {
        assert r[y] == d[y];
        var p :| 0 <= p < |s| && s[p] == d[x] && d[y] !in s[..p];
        assert s'[..p] == s[..p];
        assert s'[p] == s[p];
        assert s'[p] == r[x] && r[y] !in s'[..p];
      } else {
        assert r[y] == last && last !in s;
        assert d[x] in d;
        var p :| 0 <= p < |s| && s[p] == d[x];
        assert s'[..p] == s[..p];
        assert s'[p] == s[p];
        assert last !in s[..p];
        assert s'[p] == r[x] && r[y] !in s'[..p];
      }
    }
    assert FirstInsertionOrder(r, s');
  }

  /** The keys of `s` that have an entry in `m`, in the order of `s`. */
  function Filter<K(==,!new), V>(s: seq<K>, m: map<K, V>): (r: seq<K>)
    ensures forall k :: k in r <==> k in s && k in m
    ensures |r| <= |s|
    ensures IsSubsequence(r, s)
    ensures Distinct(s) ==> Distinct(r)
  {
    if s == [] then []
    else
      var prefix := Filter(s[..|s| - 1], m);
      var last := s[|s| - 1];
      assert forall x :: x in s <==> x in s[..|s| - 1] || x == last;
      if last in m then
        var r := prefix + [last];
        assert r[..|r| - 1] == prefix;
        r
      else prefix
  }
}

=== FILE: pass_one.dfy ===
/**
 * Pass one: give every line between the origin header and the first `end`
 * an address, and bind every label to the address of the line it starts.
 *
 * Line 0 holds the origin header; lines 1 .. |lines| - 2 are visited, the
 * last line never is. Line i gets `origin + inc`, where `inc` counts the
 * lines since the last origin change. An `org X` line sets the origin to X
 * and `inc` to -1, so the `org` line itself gets X - 1 and the next line X.
 */
module PassOne {
  import opened Wrappers
  import opened Syntax
  import opened Numerals
  import opened OrderedKeys

  const AddressWidth: nat := 12

  /** The address string of a numeric address: binary, padded to 12 digits. */
  function AddrOf(v: nat): string {
    ZFill(ToBin(v), AddressWidth)
  }

  /** An address string is binary and denotes its address. */
  lemma AddrOfDenotes(v: nat)
    ensures IsBinary(AddrOf(v)) && BinValue(AddrOf(v)) == v
  {
    ZFillValue(ToBin(v), AddressWidth);
  }

  /** An address string is exactly 12 digits long when the address is below 2^12, and longer otherwise. */
  lemma AddrOfWidth(v: nat)
    ensures |AddrOf(v)| >= AddressWidth
    ensures |AddrOf(v)| == AddressWidth <==> v < Pow2(AddressWidth)
  {
    BitLengthFits(v, AddressWidth);
  }

  /** Distinct addresses have distinct address strings. */
  lemma AddrOfInjective(v: nat, w: nat)
    ensures AddrOf(v) == AddrOf(w) <==> v == w
  {
    AddrOfDenotes(v);
    AddrOfDenotes(w);
  }

  /** Rendering `v` in hex and converting that back with `__format2bin` yields `AddrOf(v)`. */
  lemma HexCounterIsAddress(v: nat)
    ensures Format2Bin(ToHex(v), "hex", AddressWidth) == Success(AddrOf(v))
  {
  }

  /**
   * The address of a line (line 74): the origin operand parsed as hex plus the
   * increment. The source renders that sum with `hex`, strips the `0x` and
   * converts it back with `__format2bin(.., 'hex', 12)`; `HexCounterIsAddress`
   * shows that round trip yields `AddrOf` of the sum. A non-hex origin fails,
   * and so does a negative sum, whose rendering `-0x..` does not parse back.
   */
  function Counter(org: string, inc: int): (r: Result<string, Error>)
    ensures ParseRadix(org, 16).None? ==> r == Failure(NotANumber(org))
    ensures ParseRadix(org, 16).Some? && ParseRadix(org, 16).value + inc < 0 ==> r == Failure(NegativeAddress)
    ensures r.Success? <==> ParseRadix(org, 16).Some? && ParseRadix(org, 16).value + inc >= 0
  {
    match ParseRadix(org, 16)
    case None => Failure(NotANumber(org))
    case Some(base) =>
      if base + inc < 0 then Failure(NegativeAddress)
      else Success(AddrOf(base + inc))
  }

  /** What pass one produces: the address of each visited line, and the symbol table. */
  datatype Layout = Layout(
    lineAddrs: seq<string>,          // lineAddrs[i - 1] is the address of line i
    symbols: map<string, string>     // label (with its comma) to address
  )

  /** The first line at or after `i` that ends a pass: an `end` line, or the last line. */
  function StopFrom(lines: seq<Line>, i: nat): (s: nat)
    ensures i <= s
    ensures s == i || s <= |lines| - 1
    ensures s < |lines| - 1 ==> IsEnd(lines[s])
    decreases |lines| - i
  {
    if i >= |lines| - 1 then i
    else if IsEnd(lines[i]) then i
    else StopFrom(lines, i + 1)
  }

  /** No line before the stop is an `end` line: the stop is the first one. */
  lemma {:induction false} StopFromIsFirstEnd(lines: seq<Line>, i: nat)
    ensures forall j :: i <= j < StopFrom(lines, i) ==> !IsEnd(lines[j])
    decreases |lines| - i
  {
    if !(i >= |lines| - 1 || IsEnd(lines[i])) {
      StopFromIsFirstEnd(lines, i + 1);
    }
  }

  /** Both passes visit exactly the lines 1 .. Stop(lines) - 1. */
  function Stop(lines: seq<Line>): nat {
    StopFrom(lines, 1)
  }

  /** What pass one demands of a visited line besides a valid address. */
  predicate WellFormedLine(t: Line) {
    && |t| > 0
    && (IsOrg(t) ==> |t| >= 2)
    && (IsLabel(t[0]) ==> |t| >= 2)
  }

  /** The state `__first_pass` carries from one line to the next. */
  datatype Cursor = Cursor(
    org: string,                   // the origin operand in force, as text
    inc: int,                      // the increment the next line adds to it
    symbols: map<string, string>,  // labels bound so far
    addrs: seq<string>             // addresses of the lines visited so far
  )

  /**
   * One visited line that is not `end`: an `org` line replaces the origin
   * operand and restarts the increment at -1; the line gets the counter as its
   * address; a label line binds its label to that address.
   */
  function Visit(t: Line, i: nat, c: Cursor): (r: Result<Cursor, Error>)
    requires |t| > 0
    ensures r.Success? ==> WellFormedLine(t) && |r.value.addrs| == |c.addrs| + 1
  {
    if IsOrg(t) && |t| < 2 then Failure(MissingToken)
    else
      var org := if IsOrg(t) then t[1] else c.org;
      var inc := if IsOrg(t) then -1 else c.inc;
      var ctr :- Counter(org, inc);
      if IsLabel(t[0]) && |t| < 2 then Failure(MalformedLabel(i + 1))
      else
        var symbols := if IsLabel(t[0]) then c.symbols[t[0] := ctr] else c.symbols;
        Success(Cursor(org, inc + 1, symbols, c.addrs + [ctr]))
  }

  /** The new cursor after a successful visit, spelled out. */
  lemma VisitEffect(t: Line, i: nat, c: Cursor)
    requires |t| > 0 && Visit(t, i, c).Success?
    ensures var c' := Visit(t, i, c).value;
            && c'.org == (if IsOrg(t) then t[1] else c.org)
            && c'.inc == (if IsOrg(t) then 0 else c.inc + 1)
            && ParseRadix(c'.org, 16).Some?
            && ParseRadix(c'.org, 16).value + c'.inc - 1 >= 0
            && c'.addrs == c.addrs + [AddrOf(ParseRadix(c'.org, 16).value + c'.inc - 1)]
            && c'.symbols == (if IsLabel(t[0]) then c.symbols[t[0] := c'.addrs[|c.addrs|]] else c.symbols)
  {
  }

  /** The loop of `__first_pass` from line `i` on. */
  function Walk(lines: seq<Line>, i: nat, c: Cursor): (r: Result<Layout, Error>)
    requires 1 <= i && |c.addrs| == i - 1
    ensures r.Success? ==> |r.value.lineAddrs| == StopFrom(lines, i) - 1
    decreases |lines| - i
  {
    if i >= |lines| - 1 then Success(Layout(c.addrs, c.symbols))
    else if |lines[i]| == 0 then Failure(MissingToken)
    else if IsEnd(lines[i]) then Success(Layout(c.addrs, c.symbols))
    else
      var c' :- Visit(lines[i], i, c);
      Walk(lines, i + 1, c')
  }

  /** The cursor before line 1: the header's operand as origin, nothing bound. */
  function Start(lines: seq<Line>): Cursor
    requires |lines| >= 1 && |lines[0]| >= 2
  {
    Cursor(lines[0][1], 0, map[], [])
  }

  /**
   * `__first_pass`: the origin operand is the second token of line 0; a
   * program without line 0 or without that token fails.
   */
  function FirstPass(lines: seq<Line>): (r: Result<Layout, Error>)
    ensures r.Success? ==> |lines| >= 1 && |lines[0]| >= 2
    ensures r.Success? ==> |r.value.lineAddrs| == Stop(lines) - 1
  {
    if |lines| == 0 || |lines[0]| < 2 then Failure(MissingToken)
    else Walk(lines, 1, Start(lines))
  }

  lemma {:induction false} WalkWellFormed(lines: seq<Line>, i: nat, c: Cursor)
    requires 1 <= i && |c.addrs| == i - 1
    requires Walk(lines, i, c).Success?
    ensures forall j :: i <= j < StopFrom(lines, i) ==> WellFormedLine(lines[j])
    decreases |lines| - i
  {
    if !(i >= |lines| - 1 || IsEnd(lines[i])) {
      WalkWellFormed(lines, i + 1, Visit(lines[i], i, c).value);
    }
  }

  /**
   * A run that succeeds visited no empty line, no `org` without its operand
   * and no label without an instruction after it: each of those fails.
   */
  lemma FirstPassWellFormed(lines: seq<Line>)
    requires FirstPass(lines).Success?
    ensures forall i :: 1 <= i < Stop(lines) ==> WellFormedLine(lines[i])
  {
    WalkWellFormed(lines, 1, Start(lines));
  }

  // ---------------------------------------------------------------------
  // Reference definition of the addresses

  /** The index of the last `org` line in 1 .. i, or 0 (the header) if there is none. */
  function LastOrigin(lines: seq<Line>, i: nat): (j: nat)
    requires i < |lines|
    ensures j <= i
    ensures j == 0 || IsOrg(lines[j])
  {
    if i == 0 then 0
    else if IsOrg(lines[i]) then i
    else LastOrigin(lines, i - 1)
  }

  /**
   * The address line i should get: the value of the origin in force (set on
   * line j) plus the number of lines since, minus one; `None` when that origin
   * is missing, not hexadecimal, or the sum is negative.
   */
  function AddressOf(lines: seq<Line>, i: nat): Option<nat>
    requires i < |lines|
  {
    var j := LastOrigin(lines, i);
    if |lines[j]| < 2 then None
    else
      match ParseRadix(lines[j][1], 16)
      case None => None
      case Some(b) => if b + i - j - 1 < 0 then None else Some(b + i - j - 1)
  }

  /** The addresses of lines 1 .. n - 1 agree with the reference definition. */
  ghost predicate AddressesFollowOrigins(lines: seq<Line>, addrs: seq<string>, n: nat)
    requires n <= |lines| && n - 1 <= |addrs|
  {
    forall k :: 1 <= k < n ==> AddressOf(lines, k).Some? && addrs[k - 1] == AddrOf(AddressOf(lines, k).value)
  }

  /** The cursor before line i agrees with the origin in force and with the reference addresses. */
  ghost predicate OnTrack(lines: seq<Line>, i: nat, c: Cursor)
    requires 1 <= i <= |lines|
  {
    var j := LastOrigin(lines, i - 1);
    && |c.addrs| == i - 1
    && |lines[j]| >= 2
    && c.org == lines[j][1]
    && c.inc == i - 1 - j
    && AddressesFollowOrigins(lines, c.addrs, i)
  }

  /** Visiting line i keeps the cursor on track. */
  lemma VisitKeepsTrack(lines: seq<Line>, i: nat, c: Cursor)
    requires 1 <= i < |lines| - 1 && |lines[i]| > 0
    requires OnTrack(lines, i, c)
    requires Visit(lines[i], i, c).Success?
    ensures OnTrack(lines, i + 1, Visit(lines[i], i, c).value)
  {
    var t := lines[i];
    var c' := Visit(t, i, c).value;
    VisitEffect(t, i, c);
    assert LastOrigin(lines, i) == if IsOrg(t) then i else LastOrigin(lines, i - 1);
    assert AddressOf(lines, i) == Some(ParseRadix(c'.org, 16).value + c'.inc - 1);
    forall k | 1 <= k < i + 1
      ensures AddressOf(lines, k).Some? && c'.addrs[k - 1] == AddrOf(AddressOf(lines, k).value)
    {
      if k < i {
        assert c'.addrs[k - 1] == c.addrs[k - 1];
      }
    }
  }

  lemma {:induction false} WalkAddresses(lines: seq<Line>, i: nat, c: Cursor)
    requires 1 <= i <= |lines|
    requires OnTrack(lines, i, c)
    requires Walk(lines, i, c).Success?
    ensures StopFrom(lines, i) <= |lines|
    ensures AddressesFollowOrigins(lines, Walk(lines, i, c).value.lineAddrs, StopFrom(lines, i))
    decreases |lines| - i
  {
    if !(i >= |lines| - 1 || IsEnd(lines[i])) {
      VisitKeepsTrack(lines, i, c);
      WalkAddresses(lines, i + 1, Visit(lines[i], i, c).value);
    }
  }

  /**
   * Every visited line gets the address the reference definition gives it:
   * the origin in force plus its distance from the line that set it, minus one.
   */
  lemma FirstPassAddresses(lines: seq<Line>)
    requires FirstPass(lines).Success?
    ensures Stop(lines) <= |lines|
    ensures forall i :: 1 <= i < Stop(lines) ==>
              && AddressOf(lines, i).Some?
              && FirstPass(lines).value.lineAddrs[i - 1] == AddrOf(AddressOf(lines, i).value)
  {
    assert OnTrack(lines, 1, Start(lines));
    WalkAddresses(lines, 1, Start(lines));
    assert AddressesFollowOrigins(lines, FirstPass(lines).value.lineAddrs, Stop(lines));
  }

  /** A well-formed line with a valid reference address is visited without error. */
  lemma VisitSucceeds(lines: seq<Line>, i: nat, c: Cursor)
    requires 1 <= i < |lines| - 1
    requires OnTrack(lines, i, c)
    requires WellFormedLine(lines[i]) && AddressOf(lines, i).Some?
    ensures Visit(lines[i], i, c).Success?
  {
    var t := lines[i];
    assert LastOrigin(lines, i) == if IsOrg(t) then i else LastOrigin(lines, i - 1);
  }

  lemma {:induction false} WalkSucceeds(lines: seq<Line>, i: nat, c: Cursor)
    requires 1 <= i <= |lines|
    requires OnTrack(lines, i, c)
    requires forall k :: i <= k < StopFrom(lines, i) ==> WellFormedLine(lines[k]) && AddressOf(lines, k).Some?
    ensures Walk(lines, i, c).Success?
    decreases |lines| - i
  {
    if !(i >= |lines| - 1 || IsEnd(lines[i])) {
      assert StopFrom(lines, i) == StopFrom(lines, i + 1);
      VisitSucceeds(lines, i, c);
      VisitKeepsTrack(lines, i, c);
      WalkSucceeds(lines, i + 1, Visit(lines[i], i, c).value);
    }
  }

  /**
   * Pass one fails exactly on the crashes of the source: it succeeds if and
   * only if line 0 has an operand and every visited line is well formed and
   * has a valid, non-negative address under a hexadecimal origin.
   */
  lemma FirstPassSucceeds(lines: seq<Line>)
    ensures FirstPass(lines).Success? <==>
              && |lines| >= 1 && |lines[0]| >= 2
              && forall i :: 1 <= i < Stop(lines) ==> WellFormedLine(lines[i]) && AddressOf(lines, i).Some?
  {
    if FirstPass(lines).Success? {
      FirstPassWellFormed(lines);
      FirstPassAddresses(lines);
    } else if |lines| >= 1 && |lines[0]| >= 2 {
      if forall i :: 1 <= i < Stop(lines) ==> WellFormedLine(lines[i]) && AddressOf(lines, i).Some? {
        assert OnTrack(lines, 1, Start(lines));
        WalkSucceeds(lines, 1, Start(lines));
      }
    }
  }

  lemma {:induction false} NoOriginMeansHeader(lines: seq<Line>, i: nat)
    requires i < |lines|
    requires forall k :: 1 <= k <= i ==> !IsOrg(lines[k])
    ensures LastOrigin(lines, i) == 0
  {
    if i > 0 {
      NoOriginMeansHeader(lines, i - 1);
    }
  }

  /** Without an `org` line up to it, the k-th visited line gets origin + k. */
  lemma ContiguousAt(lines: seq<Line>, k: nat)
    requires FirstPass(lines).Success?
    requires forall i :: 1 <= i < Stop(lines) ==> !IsOrg(lines[i])
    requires k < |FirstPass(lines).value.lineAddrs|
    ensures ParseRadix(lines[0][1], 16).Some?
    ensures FirstPass(lines).value.lineAddrs[k] == AddrOf(ParseRadix(lines[0][1], 16).value + k)
  {
    FirstPassAddresses(lines);
    NoOriginMeansHeader(lines, k + 1);
    assert AddressOf(lines, k + 1).Some?;
  }

  /** Without an `org` line up to line m, line m's reference address is origin + m - 1. */
  lemma ContiguousAddress(lines: seq<Line>, m: nat)
    requires FirstPass(lines).Success?
    requires forall i :: 1 <= i < Stop(lines) ==> !IsOrg(lines[i])
    requires 1 <= m < Stop(lines)
    ensures m < |lines| && |lines[0]| >= 2 && ParseRadix(lines[0][1], 16).Some?
    ensures AddressOf(lines, m) == Some(ParseRadix(lines[0][1], 16).value + m - 1)
  {
    FirstPassAddresses(lines);
    NoOriginMeansHeader(lines, m);
  }

  /**
   * Without `org` lines the addresses are contiguous from the header's origin:
   * the k-th visited line gets origin + k.
   */
  lemma FirstPassContiguous(lines: seq<Line>)
    requires FirstPass(lines).Success?
    requires forall i :: 1 <= i < Stop(lines) ==> !IsOrg(lines[i])
    ensures var p := FirstPass(lines).value;
            && (|p.lineAddrs| > 0 ==> ParseRadix(lines[0][1], 16).Some?)
            && (forall k :: 0 <= k < |p.lineAddrs| ==>
                  p.lineAddrs[k] == AddrOf(ParseRadix(lines[0][1], 16).value + k))
  {
    var p := FirstPass(lines).value;
    forall k | 0 <= k < |p.lineAddrs|
      ensures ParseRadix(lines[0][1], 16).Some?
      ensures p.lineAddrs[k] == AddrOf(ParseRadix(lines[0][1], 16).value + k)
    {
      ContiguousAt(lines, k);
    }
  }

  /**
   * Without `org` lines the k-th address denotes origin + k, so the addresses
   * strictly increase and are distinct, and the last line of the program
   * never gets one.
   */
  lemma FirstPassIncreasing(lines: seq<Line>)
    requires FirstPass(lines).Success?
    requires forall i :: 1 <= i < Stop(lines) ==> !IsOrg(lines[i])
    ensures var p := FirstPass(lines).value;
            && (forall k :: 0 <= k < |p.lineAddrs| ==>
                  && IsBinary(p.lineAddrs[k])
                  && BinValue(p.lineAddrs[k]) == ParseRadix(lines[0][1], 16).value + k)
            && Distinct(p.lineAddrs)
            && (|lines| >= 2 ==> |p.lineAddrs| <= |lines| - 2)
  {
    var p := FirstPass(lines).value;
    FirstPassContiguous(lines);
    forall k | 0 <= k < |p.lineAddrs|
      ensures IsBinary(p.lineAddrs[k]) && BinValue(p.lineAddrs[k]) == ParseRadix(lines[0][1], 16).value + k
    {
      AddrOfDenotes(ParseRadix(lines[0][1], 16).value + k);
    }
  }

  /** Without `org` lines no address is repeated. */
  lemma FirstPassDistinct(lines: seq<Line>)
    requires FirstPass(lines).Success?
    requires forall i :: 1 <= i < Stop(lines) ==> !IsOrg(lines[i])
    ensures Distinct(FirstPass(lines).value.lineAddrs)
  {
    FirstPassIncreasing(lines);
  }

  /**
   * An `org X` line on a visited line gets X - 1 (so X is at least 1), and
   * the line after it, unless it is another `org`, gets exactly X.
   */
  lemma FirstPassOrigin(lines: seq<Line>, i: nat)
    requires FirstPass(lines).Success?
    requires 1 <= i < Stop(lines) && IsOrg(lines[i])
    ensures |lines[i]| >= 2 && ParseRadix(lines[i][1], 16).Some?
    ensures ParseRadix(lines[i][1], 16).value >= 1
    ensures FirstPass(lines).value.lineAddrs[i - 1] == AddrOf(ParseRadix(lines[i][1], 16).value - 1)
    ensures i + 1 < Stop(lines) && !IsOrg(lines[i + 1]) ==>
              FirstPass(lines).value.lineAddrs[i] == AddrOf(ParseRadix(lines[i][1], 16).value)
  {
    FirstPassAddresses(lines);
    assert LastOrigin(lines, i) == i;
    assert AddressOf(lines, i).Some?;
    if i + 1 < Stop(lines) && !IsOrg(lines[i + 1]) {
      assert LastOrigin(lines, i + 1) == i;
      assert AddressOf(lines, i + 1).Some?;
    }
  }

  // ---------------------------------------------------------------------
  // Labels

  /** Line t starts with `name`. */
  predicate Defines(t: Line, name: string) {
    |t| > 0 && t[0] == name
  }

  /** The last line in 1 .. n - 1 that starts with `name`, or 0 if there is none. */
  function LastDef(lines: seq<Line>, name: string, n: nat): (d: nat)
    requires n <= |lines|
    ensures d < n || d == 0
    ensures d > 0 ==> Defines(lines[d], name)
  {
    if n <= 1 then 0
    else if Defines(lines[n - 1], name) then n - 1
    else LastDef(lines, name, n - 1)
  }

  /** The binding of `name` is the address of its last definition before line n. */
  ghost predicate BindsLastDefinition(lines: seq<Line>, name: string, symbols: map<string, string>,
                                      addrs: seq<string>, n: nat)
    requires n <= |lines| && n - 1 <= |addrs|
  {
    var d := LastDef(lines, name, n);
    && (name in symbols <==> IsLabel(name) && d > 0)
    && (name in symbols ==> symbols[name] == addrs[d - 1])
  }

  /** Visiting line i keeps the binding of `name` in step with its last definition. */
  lemma VisitKeepsBinding(lines: seq<Line>, name: string, i: nat, c: Cursor)
    requires 1 <= i < |lines| - 1 && |lines[i]| > 0 && |c.addrs| == i - 1
    requires BindsLastDefinition(lines, name, c.symbols, c.addrs, i)
    requires Visit(lines[i], i, c).Success?
    ensures var c' := Visit(lines[i], i, c).value;
            BindsLastDefinition(lines, name, c'.symbols, c'.addrs, i + 1)
  {
    var c' := Visit(lines[i], i, c).value;
    VisitEffect(lines[i], i, c);
    var d := LastDef(lines, name, i);
    if d > 0 {
      assert c'.addrs[d - 1] == c.addrs[d - 1];
    }
  }

  lemma {:induction false} WalkBinds(lines: seq<Line>, name: string, i: nat, c: Cursor)
    requires 1 <= i <= |lines| && |c.addrs| == i - 1
    requires BindsLastDefinition(lines, name, c.symbols, c.addrs, i)
    requires Walk(lines, i, c).Success?
    ensures StopFrom(lines, i) <= |lines|
    ensures var r := Walk(lines, i, c).value;
            BindsLastDefinition(lines, name, r.symbols, r.lineAddrs, StopFrom(lines, i))
    decreases |lines| - i
  {
    if !(i >= |lines| - 1 || IsEnd(lines[i])) {
      VisitKeepsBinding(lines, name, i, c);
      WalkBinds(lines, name, i + 1, Visit(lines[i], i, c).value);
    }
  }

  /**
   * A name is bound exactly when it is a label that starts some visited line,
   * and it is bound to the address of the last such line: a redefinition
   * silently wins.
   */
  lemma FirstPassLabels(lines: seq<Line>, name: string)
    requires FirstPass(lines).Success?
    ensures Stop(lines) <= |lines|
    ensures var p := FirstPass(lines).value;
            BindsLastDefinition(lines, name, p.symbols, p.lineAddrs, Stop(lines))
  {
    WalkBinds(lines, name, 1, Start(lines));
  }

  // ---------------------------------------------------------------------
  // Termination at `end`

  lemma {:induction false} WalkIgnoresTail(lines: seq<Line>, lines': seq<Line>, i: nat, c: Cursor)
    requires 1 <= i <= StopFrom(lines, i) && |c.addrs| == i - 1
    requires |lines'| == StopFrom(lines, i) + 1
    requires forall k :: i <= k < StopFrom(lines, i) ==> lines'[k] == lines[k]
    ensures Walk(lines, i, c) == Walk(lines', i, c)
    decreases |lines| - i
  {
    if !(i >= |lines| - 1 || |lines[i]| == 0 || IsEnd(lines[i])) {
      var v := Visit(lines[i], i, c);
      if v.Success? {
        WalkIgnoresTail(lines, lines', i + 1, v.value);
      }
    }
  }

  /**
   * Pass one stops at the first `end`: the outcome is the same as for the
   * program cut just before that line and closed with a bare `end`, so neither
   * the `end` line nor any later line gets an address or a binding.
   */
  lemma FirstPassStopsAtEnd(lines: seq<Line>)
    requires |lines| >= 1
    ensures Stop(lines) <= |lines|
    ensures FirstPass(lines) == FirstPass(lines[..Stop(lines)] + [["end"]])
  {
    var lines' := lines[..Stop(lines)] + [["end"]];
    assert lines'[0] == lines[0];
    if |lines[0]| >= 2 {
      WalkIgnoresTail(lines, lines', 1, Start(lines));
    }
  }
}

=== FILE: pass_two.dfy ===
/**
 * Pass two: translate every visited line into a machine word and store it in
 * the slot pass one reserved for it. The slots are the pass-one addresses in
 * first-insertion order (`keys`); line i writes the (i-1)-th of them,
 * whatever address line i itself was given. Slots nobody wrote are dropped.
 */
module PassTwo {
  import opened Wrappers
  import opened Syntax
  import opened Numerals
  import opened OrderedKeys
  import opened PassOne

  /** Width of a data word produced from a `hex` or `dec` literal. */
  const WordWidth: nat := 16

  /** The rule of `__second_pass` a line falls under. */
  datatype Instr =
    | Halt
    | Register(mnemonic: string)
    | Memory(mnemonic: string, operand: string, indirect: bool)
    | InputOutput(mnemonic: string)
    | Data(format: string, literal: string)
    | Skip   // no rule matched, or a label line with an unsupported format

  /** A data line: a label followed by a `hex` or `dec` format keyword. */
  predicate IsDataLine(t: Line) {
    |t| >= 2 && IsLabel(t[0]) && (t[1] == "hex" || t[1] == "dec")
  }

  /**
   * The first rule that matches, in the order of the source: `hlt` anywhere,
   * register mnemonic at token 0 then 1, memory mnemonic at token 0 then 1,
   * I/O mnemonic at token 0 then 1, and a data line once a `hlt` was seen.
   * Looking at token 1 of a one-token line, or at the operand after a memory
   * mnemonic in token 1, or at the literal of a data line that is missing,
   * fails.
   */
  function Classify(t: Line, halted: bool, tabs: Tables): (r: Result<Instr, Error>)
    requires |t| > 0
    ensures r == Success(Halt) <==> "hlt" in t
    ensures r.Failure? ==> r.error == MissingToken && |t| < 3
    ensures r.Success? && r.value.Register? ==> r.value.mnemonic in tabs.rri && (r.value.mnemonic == t[0] || (|t| >= 2 && r.value.mnemonic == t[1]))
    ensures r.Success? && r.value.Memory? ==>
              && r.value.mnemonic in tabs.mri
              && (r.value.indirect <==> "i" in t[1..])
              && |t| >= 2
              && if t[0] in tabs.mri then r.value.mnemonic == t[0] && r.value.operand == t[1]
                 else |t| >= 3 && r.value.mnemonic == t[1] && r.value.operand == t[2]
    ensures r.Success? && r.value.InputOutput? ==> r.value.mnemonic in tabs.ioi && (r.value.mnemonic == t[0] || (|t| >= 2 && r.value.mnemonic == t[1]))
    ensures r.Success? && r.value.Data? ==>
              halted && IsDataLine(t) && |t| >= 3 && r.value.format == t[1] && r.value.literal == t[2]
  {
    if "hlt" in t then Success(Halt)
    else if t[0] in tabs.rri then Success(Register(t[0]))
    else if |t| < 2 then Failure(MissingToken)
    else if t[1] in tabs.rri then Success(Register(t[1]))
    else if t[0] in tabs.mri then Success(Memory(t[0], t[1], "i" in t[1..]))
    else if t[1] in tabs.mri then
      if |t| < 3 then Failure(MissingToken) else Success(Memory(t[1], t[2], "i" in t[1..]))
    else if t[0] in tabs.ioi then Success(InputOutput(t[0]))
    else if t[1] in tabs.ioi then Success(InputOutput(t[1]))
    else if halted && IsDataLine(t) then
      if |t| < 3 then Failure(MissingToken) else Success(Data(t[1], t[2]))
    else Success(Skip)
  }

  /**
   * First match wins: every outcome of `Classify` rules out the rules the
   * source tries before it, and `Skip` is left only when no rule applies.
   */
  lemma ClassifyFirstMatch(t: Line, halted: bool, tabs: Tables)
    requires |t| > 0
    ensures var r := Classify(t, halted, tabs);
            r.Success? && r.value.Register? ==>
              "hlt" !in t && r.value.mnemonic == if t[0] in tabs.rri then t[0] else t[1]
    ensures var r := Classify(t, halted, tabs);
            r.Success? && r.value.Memory? ==>
              "hlt" !in t && t[0] !in tabs.rri && t[1] !in tabs.rri
    ensures var r := Classify(t, halted, tabs);
            r.Success? && r.value.InputOutput? ==>
              && "hlt" !in t && |t| >= 2
              && t[0] !in tabs.rri && t[1] !in tabs.rri && t[0] !in tabs.mri && t[1] !in tabs.mri
              && r.value.mnemonic == if t[0] in tabs.ioi then t[0] else t[1]
    ensures var r := Classify(t, halted, tabs);
            r.Success? && (r.value.Data? || r.value.Skip?) ==>
              && "hlt" !in t && |t| >= 2
              && t[0] !in tabs.rri && t[1] !in tabs.rri && t[0] !in tabs.mri && t[1] !in tabs.mri
              && t[0] !in tabs.ioi && t[1] !in tabs.ioi
    ensures var r := Classify(t, halted, tabs);
            r.Success? && r.value.Skip? ==> !(halted && IsDataLine(t))
    ensures var r := Classify(t, halted, tabs);
            r.Failure? ==>
              && "hlt" !in t && t[0] !in tabs.rri
              && (|t| >= 2 ==> t[1] !in tabs.rri && t[0] !in tabs.mri
                               && (t[1] in tabs.mri || (t[0] !in tabs.ioi && t[1] !in tabs.ioi && halted && IsDataLine(t))))
  {
  }

  /**
   * The word a classified line writes, if any. `hlt` is looked up in the
   * register table; a memory reference is the indirect bit, the opcode and the
   * address bound to `operand + ","`; a data literal is formatted to 16 digits.
   */
  function Encode(k: Instr, tabs: Tables, symbols: map<string, string>): (r: Result<Option<string>, Error>)
    ensures r.Success? && r.value.Some? <==> !k.Skip? && r.Success?
    ensures k.Halt? ==> (r.Success? <==> "hlt" in tabs.rri)
    ensures k.Memory? && k.mnemonic in tabs.mri ==> (r.Success? <==> k.operand + "," in symbols)
    ensures k.Skip? ==> r == Success(None)
    ensures k.Halt? && "hlt" in tabs.rri ==> r == Success(Some(tabs.rri["hlt"]))
    ensures k.Register? ==>
              r == if k.mnemonic in tabs.rri then Success(Some(tabs.rri[k.mnemonic])) else Failure(UnknownMnemonic(k.mnemonic))
    ensures k.InputOutput? ==>
              r == if k.mnemonic in tabs.ioi then Success(Some(tabs.ioi[k.mnemonic])) else Failure(UnknownMnemonic(k.mnemonic))
    ensures k.Memory? && k.mnemonic !in tabs.mri ==> r == Failure(UnknownMnemonic(k.mnemonic))
    ensures k.Memory? && k.mnemonic in tabs.mri && k.operand + "," in symbols ==>
              r == Success(Some((if k.indirect then "1" else "0") + tabs.mri[k.mnemonic] + symbols[k.operand + ","]))
    ensures k.Data? && r.Success? ==>
              && FormatRadix(k.format).Some?
              && ParseRadix(k.literal, FormatRadix(k.format).value).Some?
              && r.value.Some?
              && IsBinary(r.value.value)
              && BinValue(r.value.value) == ParseRadix(k.literal, FormatRadix(k.format).value).value
  {
    match k
    case Halt =>
      if "hlt" in tabs.rri then Success(Some(tabs.rri["hlt"])) else Failure(UnknownMnemonic("hlt"))
    case Register(m) =>
      if m in tabs.rri then Success(Some(tabs.rri[m])) else Failure(UnknownMnemonic(m))
    case Memory(m, operand, indirect) =>
      if m !in tabs.mri then Failure(UnknownMnemonic(m))
      else if operand + "," !in symbols then Failure(UndefinedSymbol(operand + ","))
      else Success(Some((if indirect then "1" else "0") + tabs.mri[m] + symbols[operand + ","]))
    case InputOutput(m) =>
      if m in tabs.ioi then Success(Some(tabs.ioi[m])) else Failure(UnknownMnemonic(m))
    case Data(format, literal) =>
      var w :- Format2Bin(literal, format, WordWidth);
      Success(Some(w))
    case Skip => Success(None)
  }

  /**
   * A data line's word is `__format2bin(literal, format, 16)`: an unknown
   * format raises, a known one succeeds exactly when the literal parses, and
   * the word is the value in binary, zero-padded to 16 digits and never
   * truncated, so it is exactly 16 digits long when the value is below 2^16.
   */
  lemma EncodeData(k: Instr, tabs: Tables, symbols: map<string, string>)
    requires k.Data?
    ensures FormatRadix(k.format).None? ==> Encode(k, tabs, symbols) == Failure(UnsupportedFormat(k.format))
    ensures FormatRadix(k.format).Some? ==>
              (Encode(k, tabs, symbols).Success? <==> ParseRadix(k.literal, FormatRadix(k.format).value).Some?)
    ensures var r := Encode(k, tabs, symbols);
            r.Success? ==>
              && FormatRadix(k.format).Some?
              && ParseRadix(k.literal, FormatRadix(k.format).value).Some?
              && r.value.Some?
              && var n := ParseRadix(k.literal, FormatRadix(k.format).value).value;
                 && IsBinary(r.value.value)
                 && BinValue(r.value.value) == n
                 && |r.value.value| == (if |ToBin(n)| >= WordWidth then |ToBin(n)| else WordWidth)
                 && (|r.value.value| == WordWidth <==> n < Pow2(WordWidth))
  {
  }

  /** The state `__second_pass` carries from one line to the next. */
  datatype Sheet = Sheet(
    halted: bool,              // a `hlt` line has been seen
    words: map<string, string> // the slots written so far
  )

  /**
   * One visited line that is not `end`: classify and encode it, then write the
   * word to the (i-1)-th slot. The word is computed before the slot is looked
   * up, so an encoding failure wins over a missing slot.
   */
  function Place(t: Line, i: nat, keys: seq<string>, tabs: Tables, symbols: map<string, string>, s: Sheet)
    : (r: Result<Sheet, Error>)
    requires |t| > 0 && i >= 1
    ensures r.Success? ==> r.value.halted == (s.halted || "hlt" in t)
    ensures r.Success? ==>
              || r.value.words == s.words
              || (&& i - 1 < |keys| && keys[i - 1] in r.value.words
                  && r.value.words == s.words[keys[i - 1] := r.value.words[keys[i - 1]]])
  {
    var k :- Classify(t, s.halted, tabs);
    var w :- Encode(k, tabs, symbols);
    var halted := s.halted || k.Halt?;
    match w
    case None => Success(Sheet(halted, s.words))
    case Some(word) =>
      if i - 1 >= |keys| then Failure(SlotOutOfRange(i))
      else Success(Sheet(halted, s.words[keys[i - 1] := word]))
  }

  /** The loop of `__second_pass` from line `i` on; it stops where pass one stops. */
  function Sweep(lines: seq<Line>, i: nat, keys: seq<string>, tabs: Tables, symbols: map<string, string>, s: Sheet)
    : (r: Result<Sheet, Error>)
    requires i >= 1
    decreases |lines| - i
  {
    if i >= |lines| - 1 then Success(s)
    else if |lines[i]| == 0 then Failure(MissingToken)
    else if IsEnd(lines[i]) then Success(s)
    else
      var s' :- Place(lines[i], i, keys, tabs, symbols, s);
      Sweep(lines, i + 1, keys, tabs, symbols, s')
  }

  /** The machine image: the filled slots in slot order, and their words. */
  datatype Image = Image(order: seq<string>, words: map<string, string>)

  /**
   * `__second_pass`: fill the slots and drop those still empty. The result
   * never gains an address that was not a slot, and keeps the slot order.
   */
  function SecondPass(lines: seq<Line>, keys: seq<string>, tabs: Tables, symbols: map<string, string>)
    : (r: Result<Image, Error>)
    ensures r.Success? ==> forall a :: a in r.value.words ==> a in keys
    ensures r.Success? ==> forall a :: a in r.value.order <==> a in r.value.words
    ensures r.Success? ==> IsSubsequence(r.value.order, keys) && |r.value.order| <= |keys|
    ensures r.Success? && Distinct(keys) ==> Distinct(r.value.order)
  {
    var s :- Sweep(lines, 1, keys, tabs, symbols, Sheet(false, map[]));
    SweepWithinKeys(lines, 1, keys, tabs, symbols, Sheet(false, map[]));
    Success(Image(Filter(keys, s.words), s.words))
  }

  /** Pass two only ever writes slots; it never adds an address. */
  lemma {:induction false} SweepWithinKeys(lines: seq<Line>, i: nat, keys: seq<string>, tabs: Tables,
                                           symbols: map<string, string>, s: Sheet)
    requires i >= 1
    requires forall a :: a in s.words ==> a in keys
    requires Sweep(lines, i, keys, tabs, symbols, s).Success?
    ensures forall a :: a in Sweep(lines, i, keys, tabs, symbols, s).value.words ==> a in keys
    decreases |lines| - i
  {
    if i >= |lines| - 1 || IsEnd(lines[i]) {
    } else {
      var s' := Place(lines[i], i, keys, tabs, symbols, s).value;
      SweepWithinKeys(lines, i + 1, keys, tabs, symbols, s');
    }
  }

  // ---------------------------------------------------------------------------
  // A reference definition: what each line writes, stated per line.
  // ---------------------------------------------------------------------------

  /** Some line among 1 .. i-1 contains `hlt`. */
  ghost predicate HaltSeen(lines: seq<Line>, i: nat) {
    exists j :: 1 <= j < i && j < |lines| && "hlt" in lines[j]
  }

  /** The word line m writes, judged with the halt flag that the lines before it set. */
  ghost function LineWord(lines: seq<Line>, m: nat, tabs: Tables, symbols: map<string, string>)
    : Result<Option<string>, Error>
    requires 1 <= m < |lines|
  {
    if |lines[m]| == 0 then Failure(MissingToken)
    else
      var k :- Classify(lines[m], HaltSeen(lines, m), tabs);
      Encode(k, tabs, symbols)
  }

  /** The word line m writes, or `None` when it writes nothing. */
  ghost function WordOf(lines: seq<Line>, m: nat, tabs: Tables, symbols: map<string, string>): Option<string>
    requires 1 <= m < |lines|
  {
    match LineWord(lines, m, tabs, symbols)
    case Success(w) => w
    case Failure(_) => None
  }

  /**
   * After lines 1 .. i-1 with pairwise distinct slots: each of those lines
   * encoded without error and, when it writes, has a slot; slot k holds
   * exactly what line k+1 writes.
   */
  ghost predicate Filled(lines: seq<Line>, keys: seq<string>, tabs: Tables, symbols: map<string, string>,
                         words: map<string, string>, i: nat)
  {
    && (forall m :: 1 <= m < i && m < |lines| ==>
          && LineWord(lines, m, tabs, symbols).Success?
          && (LineWord(lines, m, tabs, symbols).value.Some? ==> m - 1 < |keys|))
    && (forall k :: 0 <= k < |keys| ==>
          (keys[k] in words <==> k + 1 < i && k + 1 < |lines| && WordOf(lines, k + 1, tabs, symbols).Some?))
    && (forall k :: 0 <= k < |keys| && keys[k] in words ==>
          k + 1 < |lines| && words[keys[k]] == WordOf(lines, k + 1, tabs, symbols).value)
  }

  lemma HaltSeenStep(lines: seq<Line>, i: nat)
    requires 1 <= i < |lines|
    ensures HaltSeen(lines, i + 1) <==> HaltSeen(lines, i) || "hlt" in lines[i]
  {
    if "hlt" in lines[i] {
      assert 1 <= i < i + 1 && i < |lines| && "hlt" in lines[i];
    }
    if HaltSeen(lines, i + 1) && !("hlt" in lines[i]) {
      var j :| 1 <= j < i + 1 && j < |lines| && "hlt" in lines[j];
      assert j < i;
    }
  }

  /** One successful line keeps the halt flag and the slots in step with the reference. */
  lemma PlaceKeepsFilled(lines: seq<Line>, i: nat, keys: seq<string>, tabs: Tables,
                         symbols: map<string, string>, s: Sheet)
    requires 1 <= i < |lines| && |lines[i]| > 0 && Distinct(keys)
    requires s.halted == HaltSeen(lines, i) && Filled(lines, keys, tabs, symbols, s.words, i)
    requires Place(lines[i], i, keys, tabs, symbols, s).Success?
    ensures var s' := Place(lines[i], i, keys, tabs, symbols, s).value;
            s'.halted == HaltSeen(lines, i + 1) && Filled(lines, keys, tabs, symbols, s'.words, i + 1)
  {
    HaltSeenStep(lines, i);
    var s' := Place(lines[i], i, keys, tabs, symbols, s).value;
    var w := LineWord(lines, i, tabs, symbols);
    assert w.Success?;
    forall k | 0 <= k < |keys|
      ensures keys[k] in s'.words <==> k + 1 < i + 1 && k + 1 < |lines| && WordOf(lines, k + 1, tabs, symbols).Some?
      ensures keys[k] in s'.words ==> k + 1 < |lines| && s'.words[keys[k]] == WordOf(lines, k + 1, tabs, symbols).value
    {
      if w.value.Some? {
        assert s'.words == s.words[keys[i - 1] := w.value.value];
        if k != i - 1 {
          assert keys[k] != keys[i - 1];
        }
      } else {
        assert s'.words == s.words;
      }
    }
  }

  lemma {:induction false} SweepFills(lines: seq<Line>, i: nat, keys: seq<string>, tabs: Tables,
                                      symbols: map<string, string>, s: Sheet)
    requires i >= 1 && Distinct(keys)
    requires s.halted == HaltSeen(lines, i) && Filled(lines, keys, tabs, symbols, s.words, i)
    requires Sweep(lines, i, keys, tabs, symbols, s).Success?
    ensures Filled(lines, keys, tabs, symbols, Sweep(lines, i, keys, tabs, symbols, s).value.words, StopFrom(lines, i))
    decreases |lines| - i
  {
    if i >= |lines| - 1 || IsEnd(lines[i]) {
    } else {
      var s' := Place(lines[i], i, keys, tabs, symbols, s).value;
      PlaceKeepsFilled(lines, i, keys, tabs, symbols, s);
      SweepFills(lines, i + 1, keys, tabs, symbols, s');
    }
  }

  /**
   * With pairwise distinct slots, a successful pass two encoded every visited
   * line without error, every visited line that writes has a slot, and slot
   * k holds exactly what line k+1 writes; the slot of a line past the first
   * `end` stays empty.
   */
  lemma SecondPassSlots(lines: seq<Line>, keys: seq<string>, tabs: Tables, symbols: map<string, string>)
    requires Distinct(keys)
    requires SecondPass(lines, keys, tabs, symbols).Success?
    ensures forall m :: 1 <= m < Stop(lines) ==>
              && LineWord(lines, m, tabs, symbols).Success?
              && (WordOf(lines, m, tabs, symbols).Some? ==> m - 1 < |keys|)
    ensures var img := SecondPass(lines, keys, tabs, symbols).value;
            forall k :: 0 <= k < |keys| ==>
              && (keys[k] in img.words <==> k + 1 < Stop(lines) && WordOf(lines, k + 1, tabs, symbols).Some?)
              && (keys[k] in img.words ==> img.words[keys[k]] == WordOf(lines, k + 1, tabs, symbols).value)
  {
    var s0 := Sheet(false, map[]);
    SweepFills(lines, 1, keys, tabs, symbols, s0);
  }

  /** Line m encodes without error and, when it writes a word, has a slot for it. */
  ghost predicate LineFits(lines: seq<Line>, keys: seq<string>, tabs: Tables, symbols: map<string, string>, m: nat)
    requires 1 <= m < |lines|
  {
    LineWord(lines, m, tabs, symbols).Success? && (LineWord(lines, m, tabs, symbols).value.Some? ==> m - 1 < |keys|)
  }

  /** Under the right halt flag, placing line i succeeds exactly when the line fits. */
  lemma PlaceSucceeds(lines: seq<Line>, i: nat, keys: seq<string>, tabs: Tables,
                      symbols: map<string, string>, s: Sheet)
    requires 1 <= i < |lines| && |lines[i]| > 0
    requires s.halted == HaltSeen(lines, i)
    ensures Place(lines[i], i, keys, tabs, symbols, s).Success? <==> LineFits(lines, keys, tabs, symbols, i)
  {
  }

  lemma {:induction false} SweepSucceeds(lines: seq<Line>, i: nat, keys: seq<string>, tabs: Tables,
                                         symbols: map<string, string>, s: Sheet)
    requires i >= 1 && s.halted == HaltSeen(lines, i)
    ensures Sweep(lines, i, keys, tabs, symbols, s).Success? <==>
              forall m :: i <= m < StopFrom(lines, i) ==> LineFits(lines, keys, tabs, symbols, m)
    decreases |lines| - i
  {
    if i >= |lines| - 1 || IsEnd(lines[i]) {
    } else if |lines[i]| == 0 {
      assert !LineFits(lines, keys, tabs, symbols, i);
    } else {
      PlaceSucceeds(lines, i, keys, tabs, symbols, s);
      assert StopFrom(lines, i) == StopFrom(lines, i + 1);
      if Place(lines[i], i, keys, tabs, symbols, s).Success? {
        var s' := Place(lines[i], i, keys, tabs, symbols, s).value;
        HaltSeenStep(lines, i);
        SweepSucceeds(lines, i + 1, keys, tabs, symbols, s');
      }
    }
  }

  /**
   * Pass two fails exactly on the crashes of the source: it succeeds if and
   * only if every visited line classifies and encodes without error and every
   * visited line that writes a word has a slot.
   */
  lemma SecondPassSucceeds(lines: seq<Line>, keys: seq<string>, tabs: Tables, symbols: map<string, string>)
    ensures SecondPass(lines, keys, tabs, symbols).Success? <==>
              forall m :: 1 <= m < Stop(lines) ==> LineFits(lines, keys, tabs, symbols, m)
  {
    SweepSucceeds(lines, 1, keys, tabs, symbols, Sheet(false, map[]));
  }

  // ---------------------------------------------------------------------------
  // Slots that may repeat: the last line writing a slot decides its word.
  // ---------------------------------------------------------------------------

  /** What lines 1 .. |lines|-1 write, one entry per line: entry m-1 is line m's word. */
  ghost function Writes(lines: seq<Line>, tabs: Tables, symbols: map<string, string>): (ws: seq<Option<string>>)
    ensures |ws| == if |lines| == 0 then 0 else |lines| - 1
    ensures forall m :: 1 <= m < |lines| ==> ws[m - 1] == WordOf(lines, m, tabs, symbols)
  {
    seq(if |lines| == 0 then 0 else |lines| - 1, j requires 0 <= j < |lines| - 1 => WordOf(lines, j + 1, tabs, symbols))
  }

  /**
   * The last line among 1 .. n-1 whose slot is `a` and that writes a word,
   * or 0 when none does; line m writes `ws[m-1]` into slot `keys[m-1]`.
   */
  function LastWriter(keys: seq<string>, ws: seq<Option<string>>, a: string, n: nat): (m: nat)
    ensures m < n || m == 0
    ensures m > 0 ==> m - 1 < |keys| && m - 1 < |ws| && keys[m - 1] == a && ws[m - 1].Some?
  {
    if n <= 1 then 0
    else if n - 2 < |keys| && n - 2 < |ws| && keys[n - 2] == a && ws[n - 2].Some? then n - 1
    else LastWriter(keys, ws, a, n - 1)
  }

  /** A line that writes slot `a` is at or before the last writer of `a`. */
  lemma {:induction false} LastWriterIsLast(keys: seq<string>, ws: seq<Option<string>>, a: string, n: nat, m: nat)
    requires 1 <= m < n && m - 1 < |keys| && m - 1 < |ws| && keys[m - 1] == a && ws[m - 1].Some?
    ensures m <= LastWriter(keys, ws, a, n)
    decreases n
  {
    if m < n - 1 {
      LastWriterIsLast(keys, ws, a, n - 1, m);
    }
  }

  /** After lines 1 .. n-1, every slot holds the word of its last writer, and only written slots exist. */
  ghost predicate HoldsLastWords(keys: seq<string>, ws: seq<Option<string>>, words: map<string, string>, n: nat) {
    forall a ::
      && (a in words <==> LastWriter(keys, ws, a, n) > 0)
      && (a in words ==> ws[LastWriter(keys, ws, a, n) - 1] == Some(words[a]))
  }

  /** Storing line i's word (or nothing) moves the last-writer invariant from i to i + 1. */
  lemma StoreKeepsLastWords(keys: seq<string>, ws: seq<Option<string>>, words: map<string, string>,
                            words': map<string, string>, i: nat)
    requires 1 <= i && i - 1 < |ws| && HoldsLastWords(keys, ws, words, i)
    requires ws[i - 1].Some? ==> i - 1 < |keys| && words' == words[keys[i - 1] := ws[i - 1].value]
    requires ws[i - 1].None? ==> words' == words
    ensures HoldsLastWords(keys, ws, words', i + 1)
  {
    var w := ws[i - 1];
    forall a
      ensures a in words' <==> LastWriter(keys, ws, a, i + 1) > 0
      ensures a in words' ==> ws[LastWriter(keys, ws, a, i + 1) - 1] == Some(words'[a])
    {
      if w.Some? && keys[i - 1] == a {
        assert LastWriter(keys, ws, a, i + 1) == i;
      } else {
        assert LastWriter(keys, ws, a, i + 1) == LastWriter(keys, ws, a, i);
      }
    }
  }

  /** Placing line i stores exactly its word, in slot `keys[i-1]`. */
  lemma PlaceStoresWord(lines: seq<Line>, i: nat, keys: seq<string>, tabs: Tables,
                        symbols: map<string, string>, s: Sheet)
    requires 1 <= i < |lines| && |lines[i]| > 0
    requires s.halted == HaltSeen(lines, i)
    requires Place(lines[i], i, keys, tabs, symbols, s).Success?
    ensures var s' := Place(lines[i], i, keys, tabs, symbols, s).value;
            var w := WordOf(lines, i, tabs, symbols);
            && s'.halted == HaltSeen(lines, i + 1)
            && (w.Some? ==> i - 1 < |keys| && s'.words == s.words[keys[i - 1] := w.value])
            && (w.None? ==> s'.words == s.words)
  {
    HaltSeenStep(lines, i);
    assert LineWord(lines, i, tabs, symbols).Success?;
  }

  lemma PlaceKeepsLastWords(lines: seq<Line>, i: nat, keys: seq<string>, tabs: Tables,
                            symbols: map<string, string>, ws: seq<Option<string>>, s: Sheet)
    requires 1 <= i < |lines| && |lines[i]| > 0
    requires i - 1 < |ws| && ws[i - 1] == WordOf(lines, i, tabs, symbols)
    requires s.halted == HaltSeen(lines, i) && HoldsLastWords(keys, ws, s.words, i)
    requires Place(lines[i], i, keys, tabs, symbols, s).Success?
    ensures var s' := Place(lines[i], i, keys, tabs, symbols, s).value;
            s'.halted == HaltSeen(lines, i + 1) && HoldsLastWords(keys, ws, s'.words, i + 1)
  {
    PlaceStoresWord(lines, i, keys, tabs, symbols, s);
    StoreKeepsLastWords(keys, ws, s.words, Place(lines[i], i, keys, tabs, symbols, s).value.words, i);
  }

  lemma {:induction false} SweepKeepsLastWords(lines: seq<Line>, i: nat, keys: seq<string>, tabs: Tables,
                                               symbols: map<string, string>, ws: seq<Option<string>>, s: Sheet)
    requires i >= 1
    requires |ws| >= |lines| - 1
    requires forall m {:trigger WordOf(lines, m, tabs, symbols)} :: i <= m < |lines| - 1 ==>
               ws[m - 1] == WordOf(lines, m, tabs, symbols)
    requires s.halted == HaltSeen(lines, i)
    requires HoldsLastWords(keys, ws, s.words, i)
    requires Sweep(lines, i, keys, tabs, symbols, s).Success?
    ensures HoldsLastWords(keys, ws, Sweep(lines, i, keys, tabs, symbols, s).value.words, StopFrom(lines, i))
    decreases |lines| - i
  {
    if i >= |lines| - 1 || IsEnd(lines[i]) {
    } else {
      var s' := Place(lines[i], i, keys, tabs, symbols, s).value;
      PlaceKeepsLastWords(lines, i, keys, tabs, symbols, ws, s);
      SweepKeepsLastWords(lines, i + 1, keys, tabs, symbols, ws, s');
    }
  }

  /**
   * Whatever the slots, a successful sweep leaves in every slot the word of
   * the last visited line that writes it, and nothing in slots no visited
   * line writes.
   */
  lemma SweepLastWords(lines: seq<Line>, keys: seq<string>, tabs: Tables, symbols: map<string, string>)
    requires Sweep(lines, 1, keys, tabs, symbols, Sheet(false, map[])).Success?
    ensures HoldsLastWords(keys, Writes(lines, tabs, symbols),
                           Sweep(lines, 1, keys, tabs, symbols, Sheet(false, map[])).value.words, Stop(lines))
  {
    SweepKeepsLastWords(lines, 1, keys, tabs, symbols, Writes(lines, tabs, symbols), Sheet(false, map[]));
  }

  /**
   * Each visited line of a successful pass two with pairwise distinct slots:
   * it classifies and encodes without error under the halt flag the lines
   * before it set, and its slot holds its word, or stays empty when it writes
   * none.
   */
  lemma VisitedLine(lines: seq<Line>, keys: seq<string>, tabs: Tables, symbols: map<string, string>, m: nat)
    requires Distinct(keys)
    requires SecondPass(lines, keys, tabs, symbols).Success?
    requires 1 <= m < Stop(lines)
    ensures m < |lines| && |lines[m]| > 0
    ensures Classify(lines[m], HaltSeen(lines, m), tabs).Success?
    ensures var k := Classify(lines[m], HaltSeen(lines, m), tabs).value;
            var img := SecondPass(lines, keys, tabs, symbols).value;
            && Encode(k, tabs, symbols).Success?
            && (Encode(k, tabs, symbols).value.Some? ==>
                  && m - 1 < |keys|
                  && keys[m - 1] in img.words
                  && img.words[keys[m - 1]] == Encode(k, tabs, symbols).value.value)
            && (Encode(k, tabs, symbols).value.None? && m - 1 < |keys| ==> keys[m - 1] !in img.words)
  {
    SecondPassSlots(lines, keys, tabs, symbols);
    assert LineWord(lines, m, tabs, symbols).Success?;
    assert |lines[m]| > 0;
  }

  /** A line that is data once halted matches no rule before the halt. */
  lemma DataUnhalted(t: Line, tabs: Tables)
    requires |t| > 0 && Classify(t, true, tabs).Success? && Classify(t, true, tabs).value.Data?
    ensures |t| >= 3 && Classify(t, true, tabs) == Success(Data(t[1], t[2]))
    ensures Classify(t, false, tabs) == Success(Skip)
  {
  }

  /**
   * A data line is judged by the halt flag: before any `hlt` line its slot
   * stays empty; after one, its slot holds the literal's value in binary.
   */
  lemma DataNeedsHalt(lines: seq<Line>, keys: seq<string>, tabs: Tables, symbols: map<string, string>, m: nat)
    requires Distinct(keys)
    requires SecondPass(lines, keys, tabs, symbols).Success?
    requires 1 <= m < Stop(lines) && m - 1 < |keys|
    requires |lines[m]| > 0 && Classify(lines[m], true, tabs).Success? && Classify(lines[m], true, tabs).value.Data?
    ensures var img := SecondPass(lines, keys, tabs, symbols).value;
            && (keys[m - 1] in img.words <==> HaltSeen(lines, m))
            && (keys[m - 1] in img.words ==>
                  var radix := FormatRadix(lines[m][1]);
                  && radix.Some?
                  && ParseRadix(lines[m][2], radix.value).Some?
                  && IsBinary(img.words[keys[m - 1]])
                  && var n := ParseRadix(lines[m][2], radix.value).value;
                     && BinValue(img.words[keys[m - 1]]) == n
                     && |img.words[keys[m - 1]]| == (if |ToBin(n)| >= WordWidth then |ToBin(n)| else WordWidth)
                     && (|img.words[keys[m - 1]]| == WordWidth <==> n < Pow2(WordWidth)))
  {
    VisitedLine(lines, keys, tabs, symbols, m);
    DataUnhalted(lines[m], tabs);
    EncodeData(Classify(lines[m], true, tabs).value, tabs, symbols);
  }

  /**
   * A visited memory-reference line with the mnemonic first encodes as the
   * indirect bit ('1' exactly when a token `i` follows the mnemonic), the
   * opcode and the address bound to the operand's label; a successful pass
   * two implies that label is bound.
   */
  lemma MemoryWord(lines: seq<Line>, keys: seq<string>, tabs: Tables, symbols: map<string, string>, m: nat)
    requires Distinct(keys)
    requires SecondPass(lines, keys, tabs, symbols).Success?
    requires 1 <= m < Stop(lines)
    requires |lines[m]| > 0 && "hlt" !in lines[m]
    requires lines[m][0] !in tabs.rri && lines[m][0] in tabs.mri
    requires |lines[m]| >= 2 ==> lines[m][1] !in tabs.rri
    ensures |lines[m]| >= 2 && m - 1 < |keys|
    ensures lines[m][1] + "," in symbols
    ensures var img := SecondPass(lines, keys, tabs, symbols).value;
            && keys[m - 1] in img.words
            && img.words[keys[m - 1]]
               == (if "i" in lines[m][1..] then "1" else "0") + tabs.mri[lines[m][0]] + symbols[lines[m][1] + ","]
  {
    VisitedLine(lines, keys, tabs, symbols, m);
    var t := lines[m];
    var k := Classify(t, HaltSeen(lines, m), tabs).value;
    assert |t| >= 2;
    assert k == Memory(t[0], t[1], "i" in t[1..]);
  }

  /**
   * The same for a labelled memory-reference line: the mnemonic is the
   * second token and the operand the third.
   */
  lemma LabelledMemoryWord(lines: seq<Line>, keys: seq<string>, tabs: Tables, symbols: map<string, string>, m: nat)
    requires Distinct(keys)
    requires SecondPass(lines, keys, tabs, symbols).Success?
    requires 1 <= m < Stop(lines)
    requires |lines[m]| >= 2 && "hlt" !in lines[m]
    requires lines[m][0] !in tabs.rri && lines[m][1] !in tabs.rri
    requires lines[m][0] !in tabs.mri && lines[m][1] in tabs.mri
    ensures |lines[m]| >= 3 && m - 1 < |keys|
    ensures lines[m][2] + "," in symbols
    ensures var img := SecondPass(lines, keys, tabs, symbols).value;
            && keys[m - 1] in img.words
            && img.words[keys[m - 1]]
               == (if "i" in lines[m][1..] then "1" else "0") + tabs.mri[lines[m][1]] + symbols[lines[m][2] + ","]
  {
    VisitedLine(lines, keys, tabs, symbols, m);
    var t := lines[m];
    var k := Classify(t, HaltSeen(lines, m), tabs).value;
    assert |t| >= 3;
    assert k == Memory(t[1], t[2], "i" in t[1..]);
  }

  /**
   * A visited line without `hlt` that names a register mnemonic in token 0,
   * or failing that in token 1, stores that mnemonic's register word.
   */
  lemma RegisterWord(lines: seq<Line>, keys: seq<string>, tabs: Tables, symbols: map<string, string>, m: nat)
    requires Distinct(keys)
    requires SecondPass(lines, keys, tabs, symbols).Success?
    requires 1 <= m < Stop(lines)
    requires |lines[m]| > 0 && "hlt" !in lines[m]
    requires lines[m][0] in tabs.rri || (|lines[m]| >= 2 && lines[m][1] in tabs.rri)
    ensures m - 1 < |keys|
    ensures var mnemonic := if lines[m][0] in tabs.rri then lines[m][0] else lines[m][1];
            var img := SecondPass(lines, keys, tabs, symbols).value;
            keys[m - 1] in img.words && img.words[keys[m - 1]] == tabs.rri[mnemonic]
  {
    VisitedLine(lines, keys, tabs, symbols, m);
  }

  /**
   * A visited line without `hlt`, register or memory mnemonic in tokens 0
   * and 1 that names an I/O mnemonic in token 0, or failing that in token 1,
   * stores that mnemonic's I/O word; such a line has at least two tokens.
   */
  lemma IoWord(lines: seq<Line>, keys: seq<string>, tabs: Tables, symbols: map<string, string>, m: nat)
    requires Distinct(keys)
    requires SecondPass(lines, keys, tabs, symbols).Success?
    requires 1 <= m < Stop(lines)
    requires |lines[m]| > 0 && "hlt" !in lines[m]
    requires lines[m][0] !in tabs.rri && lines[m][0] !in tabs.mri
    requires |lines[m]| >= 2 ==> lines[m][1] !in tabs.rri && lines[m][1] !in tabs.mri
    requires lines[m][0] in tabs.ioi || (|lines[m]| >= 2 && lines[m][1] in tabs.ioi)
    ensures |lines[m]| >= 2 && m - 1 < |keys|
    ensures var mnemonic := if lines[m][0] in tabs.ioi then lines[m][0] else lines[m][1];
            var img := SecondPass(lines, keys, tabs, symbols).value;
            keys[m - 1] in img.words && img.words[keys[m - 1]] == tabs.ioi[mnemonic]
  {
    VisitedLine(lines, keys, tabs, symbols, m);
  }

  /** A visited `hlt` line writes the register table's `hlt` word and raises the halt flag for the rest. */
  lemma HaltWord(lines: seq<Line>, keys: seq<string>, tabs: Tables, symbols: map<string, string>, m: nat)
    requires Distinct(keys)
    requires SecondPass(lines, keys, tabs, symbols).Success?
    requires 1 <= m < Stop(lines) && "hlt" in lines[m]
    ensures "hlt" in tabs.rri && m - 1 < |keys|
    ensures var img := SecondPass(lines, keys, tabs, symbols).value;
            keys[m - 1] in img.words && img.words[keys[m - 1]] == tabs.rri["hlt"]
    ensures forall j :: m < j < |lines| ==> HaltSeen(lines, j)
  {
    VisitedLine(lines, keys, tabs, symbols, m);
    assert Classify(lines[m], HaltSeen(lines, m), tabs).value == Halt;
    forall j | m < j < |lines|
      ensures HaltSeen(lines, j)
    {
      assert 1 <= m < j && m < |lines| && "hlt" in lines[m];
    }
  }
}

=== FILE: syntax.dfy ===
/** Tokens, opcode tables and the failures an assembly run can raise. */
module Syntax {

  /** One whitespace-delimited, lower-cased word of a source line. */
  type Token = string

  /** One physical source line, already split into tokens. */
  type Line = seq<Token>

  /** The three mnemonic-to-opcode tables; an absent table file is an empty map. */
  datatype Tables = Tables(
    mri: map<string, string>,  // memory-reference instructions
    rri: map<string, string>,  // register-reference instructions
    ioi: map<string, string>   // input/output instructions
  )

  /** Every way an assembly run can fail. */
  datatype Error =
    | MissingToken              // a line is indexed past its last token
    | MalformedLabel(line: nat) // a label line without an instruction (1-based line number)
    | NotANumber(text: string)  // a literal that does not parse in its radix
    | NegativeAddress           // an origin of 0 set by `org` makes the `org` line's address -1
    | UnsupportedFormat(format: string)
    | UndefinedSymbol(symbol: string)
    | UnknownMnemonic(mnemonic: string)
    | SlotOutOfRange(line: nat) // pass two found fewer addresses than lines

  /** A label is any token that ends with a comma. */
  predicate IsLabel(tok: Token) {
    |tok| > 0 && tok[|tok| - 1] == ','
  }

  /**
   * `IsLabel` is `tok.endswith(',')`: the token is some (possibly empty)
   * name followed by one comma, so the empty token and a bare name are not
   * labels while `","` is.
   */
  lemma IsLabelEndsWithComma(tok: Token)
    ensures IsLabel(tok) <==> exists name: string :: tok == name + ","
  {
    if IsLabel(tok) {
      assert tok == tok[..|tok| - 1] + ",";
    }
  }

  /** A line whose first token is `end` terminates both passes. */
  predicate IsEnd(t: Line) {
    |t| > 0 && t[0] == "end"
  }

  /** A line whose first token is `org` moves the origin. */
  predicate IsOrg(t: Line) {
    |t| > 0 && t[0] == "org"
  }
}

=== FILE: wrappers.dfy ===
/** Failure-compatible Option and Result types used throughout the model. */
module Wrappers {

  datatype Option<+T> = None | Some(value: T)

  /** Either a value or the error the assembler raises. Usable with `:-`. */
  datatype Result<+T, +E> = Success(value: T) | Failure(error: E) {

    predicate IsFailure() {
      Failure?
    }

    function PropagateFailure<U>(): Result<U, E>
      requires Failure?
    {
      Failure(error)
    }

    function Extract(): T
      requires Success?
    {
      value
    }
  }
}
